=== FILE: README.md ===
# pixora request handling, modelled in Dafny

pixora is an image-sharing service. Users sign up, sign in and post images
("pins"). Each post waits in PENDING until an administrator approves or
rejects it. Users comment on posts and read a notification feed. This project
models, as pure functions over an immutable store:

- the Express server's request handlers:
  - users: signup, signin, and GET/PUT/DELETE /me;
  - posts: create, the public feed, get, delete;
  - comments: add and delete;
  - notifications: feed, unread count, mark-read;
  - the admin router: dashboard counters, analytics counters, pending queue,
    paginated user/media listings, user detail, approve/reject, deletes, and
    the order in which its routes are registered;
- the zod request validators;
- the two JWT middlewares (admin and user);
- the Next.js route guard;
- the pure view logic of the profile page and the post page.

The store (`Types.Store`) holds one map per table, keyed by record id. A
handler takes the store, the caller id its middleware produced, and its
inputs. It returns the status code and the store it leaves behind
(`Types.Outcome` / `Types.Reply`). Every `try { … } catch { 500 }` that a
modelled database failure can reach appears as an explicit 500 branch that
leaves the store unchanged. The database throws when:

- the row an update or delete names is missing;
- a unique constraint is violated;
- a foreign key is dangling;
- a generated id is already taken.

The libraries the server calls are not part of this model. bcrypt becomes
`Crypto.Hasher` and jsonwebtoken becomes `Crypto.Jwt`: each is a pair of
arbitrary functions held in a datatype. The properties the server relies on
are stated as predicates, `Crypto.HasherSound` and `Crypto.JwtSound`. Lemmas
take them as hypotheses. The database schema is not part of this model either,
so two things are a parameter, `Database.DbConfig`:

- the column defaults (a new post's status, a new user's role);
- the behaviour of a delete whose row is still referenced (Cascade or Restrict).

Generated ids and `createdAt` timestamps are parameters of the handlers that
create rows. zod's email pattern is the parameter `isEmail`.

Module layout, one per source component:

| module | file | source |
|---|---|---|
| `Types` | types.dfy | record shapes, status codes |
| `Database` | database.dfy | the invariants the store keeps; row deletes |
| `Crypto` | crypto.dfy | bcrypt / jsonwebtoken stand-ins |
| `Schema` | schema.dfy | server/zod/schema.ts |
| `Auth` | auth.dfy | server/middlewares/*.ts |
| `Listing` | listing.dfy | `findMany` with `where` + `orderBy: createdAt desc` |
| `NotificationRoutes` | notifications.dfy | server/routes/notification.routes.ts |
| `PostRoutes` | posts.dfy | server/routes/post.routes.ts |
| `CommentRoutes` | comments.dfy | server/routes/comment.routes.ts |
| `UserRoutes` | users.dfy | server/routes/user.routes.ts |
| `AdminRoutes` | admin.dfy | server/routes/admin.routes.ts (moderation, counters, detail, deletes) |
| `AdminLists` | admin_lists.dfy | server/routes/admin.routes.ts (paginated listings) |
| `AdminRouter` | admin_router.dfy | server/routes/admin.routes.ts (route registration order) |
| `RouteGuard` | route_guard.dfy | frontend/src/middleware.ts |
| `ProfilePage` | profile_page.dfy | frontend/src/components/ProfilePageComponent.tsx |
| `PostPage` | post_page.dfy | frontend/src/components/PostPageComponent.tsx |

Behaviours of the code worth stating up front:

- Approve and reject overwrite the status from any state. A rejected post
  can be approved, and the reverse. They read no request body and create no
  notification. The notification routes therefore only read and mark; nothing
  in the modelled core creates a notification.
- The dashboard's `pendingPosts` is total minus approved (see Findings).
- The profile-update schema requires a 5-character username and an
  8-character password, and PUT /me answers 401, not 400, on a bad payload.

## Model

| member | source | states |
|---|---|---|
| Database.DeletePost | server/routes/post.routes.ts:89-93 | a post delete fails exactly when the post is missing or, under Restrict, a comment still references it; otherwise exactly that post goes, and only comments on it go with it |
| Database.DeleteUser | server/routes/user.routes.ts:193-197 | a user delete fails exactly when the user is missing or, under Restrict, still referenced; otherwise exactly that user goes, other users stay unchanged, and under Cascade the user's posts, notifications, and comments by or on the user's posts go with it |
| Database.DeletePostKeepsValid | server/routes/post.routes.ts:89-93 | a successful post delete keeps ids, unique credentials and every foreign key intact |
| Database.DeleteUserKeepsValid | server/routes/user.routes.ts:193-197 | a successful user delete keeps ids, unique credentials and every foreign key intact |
| Schema.ParseSignup | server/zod/schema.ts:3-13 | signup data is accepted iff the names are present, username has at least 5 characters, password at least 8, and the email is well-formed; the parsed fields are the given ones |
| Schema.ParseSignin | server/zod/schema.ts:15-18 | signin data is accepted iff both fields are strings, with no length bound |
| Schema.ParseProfileUpdate | server/zod/schema.ts:20-23 | a profile update is accepted iff username has at least 5 characters and password at least 8 |
| Schema.ParsePost | server/zod/schema.ts:25-30 | a post is accepted iff title >= 5, description >= 10, image >= 10 and category >= 5 characters |
| Schema.SchemasNested | server/zod/schema.ts:15-23 | every accepted profile update is also an accepted signin payload with the same credentials |
| Schema.SignupCredentialsUpdatable | server/zod/schema.ts:3-23 | the username and password of every accepted signup payload pass the profile-update schema unchanged |
| Schema.UsernameBoundInclusive | server/zod/schema.ts:6-8 | the username bound is inclusive: five characters pass, four fail |
| Schema.PostBoundsInclusive | server/zod/schema.ts:25-30 | every post bound is inclusive: the minimum lengths pass, and one character less or a missing value on any of the four fields fails |
| Auth.SplitOnSpace | server/middlewares/admin.middleware.ts:9 | splitting on " " yields at least one piece, and no piece contains a space |
| Auth.JoinSplit | server/middlewares/admin.middleware.ts:9 | joining the pieces with " " gives back the header |
| Auth.SplitJoin | server/middlewares/admin.middleware.ts:9 | splitting a space-joined list of space-free words gives back the words |
| Auth.SplitWord | server/middlewares/admin.middleware.ts:9 | a space-free word followed by a space-led rest splits into the word and the rest's pieces |
| Auth.BearerToken | server/middlewares/admin.middleware.ts:9-16 | an extracted token is non-empty and space-free |
| Auth.BearerRoundTrip | server/middlewares/admin.middleware.ts:9-16 | "Bearer " + t yields t for every non-empty space-free t |
| Auth.BearerTokenFound | server/middlewares/admin.middleware.ts:9-16 | a header "scheme t rest" with space-free scheme and t, and rest empty or starting with a space, yields t, or no token when t is empty |
| Auth.MissingTokenCases | server/middlewares/admin.middleware.ts:9-16 | an absent header and a bare "Bearer " both carry no token, so the middleware answers 400 |
| Auth.BearerTokenLocated | server/middlewares/admin.middleware.ts:9-16 | the token is the text between the first space and the next space or the end |
| Auth.NoSpaceNoToken | server/middlewares/admin.middleware.ts:9-16 | a header without a space yields no token |
| Auth.AdminGate | server/middlewares/admin.middleware.ts:5-34 | each request is either answered (400 without a token; 403 on a failed verify or a non-ADMIN role) or passed on as the token's id, never both |
| Auth.UserGate | server/middlewares/user.middleware.ts:5-27 | each request is either answered (400 without a token; 403 on a failed verify) or passed on as the token's id, with no role check |
| Auth.SecretsSeparateTiers | server/middlewares/user.middleware.ts:18 | with distinct secrets, an admin-signed token passes only the admin gate, and a user-signed token passes only the user gate |
| Listing.InsertByStamp | server/routes/notification.routes.ts:22-24 | inserting into a newest-first list keeps it newest first and adds exactly the new entry |
| Listing.SelectNewestFirst | server/routes/notification.routes.ts:11-25 | a listing holds exactly the rows the filter accepts, one entry per row, newest first |
| Listing.SelectNewest | server/routes/admin.routes.ts:21-24 | `take: n` after `orderBy: createdAt desc`: the first n entries of a newest-first list of exactly the accepted rows, one entry per row, so min(matches, n) rows; a row is left out only when the list is full and it is no newer than the last entry |
| Listing.Take | server/routes/admin.routes.ts:21-23 | `take: n` keeps the first n entries, or all when fewer |
| Listing.SubsetCardinality | server/routes/notification.routes.ts:39-44 | a filtered count never exceeds the unfiltered one |
| NotificationRoutes.List | server/routes/notification.routes.ts:7-33 | the feed holds exactly the caller's notifications, newest first |
| NotificationRoutes.Count | server/routes/notification.routes.ts:35-54 | the count is the number of the caller's unread notifications, at most the caller's total |
| NotificationRoutes.MarkRead | server/routes/notification.routes.ts:56-83 | succeeds iff the notification exists and belongs to the caller; only its `read` flag changes, to true; otherwise 500 and nothing changes |
| NotificationRoutes.MarkReadIdempotent | server/routes/notification.routes.ts:64-72 | marking twice is the same as marking once |
| NotificationRoutes.MarkReadCount | server/routes/notification.routes.ts:39-72 | marking an unread own notification lowers the caller's count by one; a read one leaves it; other users' counts never move |
| NotificationRoutes.ReadIsSticky | server/routes/notification.routes.ts:64-72 | a read notification stays read |
| NotificationRoutes.CountScoped | server/routes/notification.routes.ts:39-44 | the count depends only on the caller's own notifications |
| NotificationRoutes.MarkReadKeepsValid | server/routes/notification.routes.ts:64-72 | mark-read keeps the store's invariants |
| PostRoutes.Create | server/routes/post.routes.ts:8-43 | 401 iff the payload is invalid; 201 iff valid with an existing caller and a fresh id, adding one post owned by the caller with zero likes, the validated fields and the default status; otherwise 500 and nothing changes |
| PostRoutes.CreateKeepsValid | server/routes/post.routes.ts:24-33 | creating a post keeps the store's invariants |
| PostRoutes.PublicList | server/routes/post.routes.ts:45-65 | the public feed holds exactly the APPROVED posts of every user |
| PostRoutes.FreshPostVisibility | server/routes/post.routes.ts:24-33 | a new post is APPROVED iff the column default is APPROVED |
| PostRoutes.GetById | server/routes/post.routes.ts:67-83 | always 200; the body is the post iff it exists, whatever its status |
| PostRoutes.Delete | server/routes/post.routes.ts:85-103 | 200 iff the database delete succeeds, leaving exactly the store that delete produces: that post gone, every other post unchanged, users and notifications untouched, and only the comments on that post removed; otherwise 500 and nothing changes |
| PostRoutes.DeleteIgnoresOwner | server/routes/post.routes.ts:85-93 | the result never depends on who asks, for every id and either delete policy; under Cascade any caller deletes any existing post |
| PostRoutes.CreateThenDelete | server/routes/post.routes.ts:8-103 | deleting a post just created restores the store |
| PostRoutes.CreateThenGet | server/routes/post.routes.ts:8-83 | looking up a post just created finds it, owned by the caller with the default status, whether or not the public feed shows it |
| CommentRoutes.Add | server/routes/comment.routes.ts:7-58 | 400 for a missing post id or an unknown post; 401 for missing or empty text; 200 adds exactly one comment by the caller on that post; otherwise 500 and nothing changes |
| CommentRoutes.Delete | server/routes/comment.routes.ts:60-88 | 400 iff the id is empty; 200 iff the comment exists and is the caller's, removing exactly it; otherwise 500 and nothing changes |
| CommentRoutes.DeleteSparesOthers | server/routes/comment.routes.ts:72-77 | another user's comment never disappears |
| CommentRoutes.AddThenDelete | server/routes/comment.routes.ts:7-88 | deleting a comment just added restores the store |
| CommentRoutes.AddKeepsValid | server/routes/comment.routes.ts:41-47 | adding a comment keeps the store's invariants |
| CommentRoutes.DeleteKeepsValid | server/routes/comment.routes.ts:72-77 | deleting a comment keeps the store's invariants |
| UserRoutes.Signup | server/routes/user.routes.ts:11-65 | 400 iff invalid; 409 iff valid and some user shares the username or email; 201 iff neither and the id is fresh, adding exactly one user, under the new id, with the given username, email, first and last name, the hashed password, the default role and the creation time; otherwise 500 and nothing changes |
| UserRoutes.SignupKeepsValid | server/routes/user.routes.ts:25-55 | signup keeps usernames and emails unique and the store's other invariants |
| UserRoutes.SignupTwiceConflicts | server/routes/user.routes.ts:25-43 | repeating a successful signup answers 409 |
| UserRoutes.FindByUsername | server/routes/user.routes.ts:81-85 | finds the user with that username iff one exists |
| UserRoutes.Signin | server/routes/user.routes.ts:67-123 | 400 iff invalid; 200 iff some user has the username and the password matches its digest, answering a token over the user's id and role signed with the admin secret for admins and the user secret otherwise; else 401 |
| UserRoutes.SignupThenSignin | server/routes/user.routes.ts:11-123 | with a sound hasher, signing in with the credentials just signed up succeeds, as the new account with the default role |
| UserRoutes.SigninTokenTier | server/routes/user.routes.ts:103-109 | with distinct secrets, a signin token opens the admin middleware iff the role is ADMIN and the user middleware iff it is USER |
| UserRoutes.Me | server/routes/user.routes.ts:125-151 | 400 iff the caller has no row; otherwise the caller's row (digest included) with exactly the caller's posts |
| UserRoutes.SignupThenMe | server/routes/user.routes.ts:11-151 | on a consistent store, a new account reads back through GET /me as its own row with no posts |
| UserRoutes.UpdateWith | server/routes/user.routes.ts:153-187 | 401 iff invalid; 200 iff the caller exists and no other user holds the new username, changing only the caller's username and password; otherwise 500 and nothing changes |
| UserRoutes.UpdateMe | server/routes/user.routes.ts:169-177 | as written: a payload that fails signinSchema gets 401 and changes nothing; otherwise the update is exactly UpdateWith with the password as received: 500 and no change when the caller's row is missing or the username is taken, else only that user's username and password change |
| UserRoutes.UpdateMeHashed | server/routes/user.routes.ts:169-177 | the corrected update: same 401 on a bad payload, otherwise exactly UpdateWith with the digest of the new password stored |
| UserRoutes.UpdateKeepsValid | server/routes/user.routes.ts:169-177 | a profile update keeps usernames and emails unique |
| UserRoutes.UpdateMeLocksOut | server/routes/user.routes.ts:67-177 | as written, on a consistent store and with a hasher that accepts only the digest and never digests a password to itself, every successful update is followed by a 401 when signing in with the same username and password |
| UserRoutes.LockOutExample | server/routes/user.routes.ts:169-177 | the lock-out hypotheses are met by a concrete store and hasher, and signin answers 401 there |
| UserRoutes.UpdateMeHashedThenSignin | server/routes/user.routes.ts:169-177 | with hashing, signing in with the new credentials succeeds as the caller |
| UserRoutes.DeleteMe | server/routes/user.routes.ts:189-207 | 200 iff the database delete succeeds, leaving exactly the store that delete produces: the caller's row gone and every other user unchanged; otherwise 500 and nothing changes |
| UserRoutes.DeleteMeThenSignin | server/routes/user.routes.ts:189-207 | after deleting the account, signing in under its username answers 401 |
| AdminRoutes.SetStatus | server/routes/admin.routes.ts:308-342 | 200 iff the post exists, writing only its status; otherwise 500 and nothing changes; no notification is written |
| AdminRoutes.Approve | server/routes/admin.routes.ts:308-324 | approve succeeds iff the post exists, makes it APPROVED and leaves every other row unchanged |
| AdminRoutes.Reject | server/routes/admin.routes.ts:326-342 | reject succeeds iff the post exists, makes it REJECTED and leaves every other row unchanged |
| AdminRoutes.ModerationOverwrites | server/routes/admin.routes.ts:308-342 | approving is idempotent, and of two decisions the later wins |
| AdminRoutes.RejectedCanBeApproved | server/routes/admin.routes.ts:308-324 | a REJECTED post can still be approved |
| AdminRoutes.ModerationKeepsValid | server/routes/admin.routes.ts:308-342 | moderation keeps the store's invariants |
| AdminRoutes.PendingApproval | server/routes/admin.routes.ts:142-159 | the queue holds exactly the PENDING posts, newest first |
| AdminRoutes.StatusPartition | server/routes/admin.routes.ts:89-95 | the APPROVED, PENDING and REJECTED counts add up to the number of posts |
| AdminRoutes.OverviewCounts | server/routes/admin.routes.ts:9-15 | as written, the dashboard's pending figure counts PENDING and REJECTED posts together |
| AdminRoutes.OverviewCountsCorrected | server/routes/admin.routes.ts:35 | the corrected pending figure counts PENDING posts only and agrees with the media analytics |
| AdminRoutes.OverviewCountsRejectedAsPending | server/routes/admin.routes.ts:35 | one rejected post and no pending one is reported as one pending post |
| AdminRoutes.Dashboard | server/routes/admin.routes.ts:7-44 | the counters and the first 10 of a newest-first list of all posts (all if fewer); a post is left out only when 10 are shown and it is no newer than the tenth |
| AdminRoutes.UserAnalytics | server/routes/admin.routes.ts:45-85 | admin count plus regular-user count is the total, and regular users are exactly the USER role |
| AdminRoutes.MediaCounts | server/routes/admin.routes.ts:87-140 | the media pending figure counts PENDING only, and equals the dashboard's figure iff no post is REJECTED |
| AdminRoutes.ViewHidesOnlyPassword | server/routes/admin.routes.ts:238 | two users look the same in the detail view iff they differ at most in the password |
| AdminRoutes.RecentPostsOf | server/routes/admin.routes.ts:213-219 | the user's post count, and the first 10 of a newest-first list of exactly the user's posts |
| AdminRoutes.RecentCommentsOf | server/routes/admin.routes.ts:213-224 | the user's comment count, and the first 10 of a newest-first list of exactly the user's comments |
| AdminRoutes.GetUserDetail | server/routes/admin.routes.ts:209-244 | 404 iff the user is missing; otherwise the user without the password, the full counts, and the first 10 of newest-first lists of exactly the user's posts and of its comments |
| AdminRoutes.DeleteUser | server/routes/admin.routes.ts:246-255 | 200 iff the database delete succeeds, leaving exactly the store that delete produces: that user gone and every other user unchanged; otherwise 500 and nothing changes |
| AdminRoutes.DeleteMedia | server/routes/admin.routes.ts:344-353 | 200 iff the post delete succeeds, leaving exactly the store that delete produces: that post gone, every other post unchanged, users and notifications untouched; otherwise 500 and nothing changes |
| AdminRoutes.DeleteUserTwice | server/routes/admin.routes.ts:246-255 | after a successful user delete the user is gone, and deleting it again answers 500 and changes nothing |
| AdminRoutes.DeleteMediaThenLookup | server/routes/admin.routes.ts:344-353 | after a successful post delete no post or comment refers to that id, and deleting it again answers 500 |
| AdminLists.PageCount | server/routes/admin.routes.ts:201 | the page count is the least number of pages of `limit` rows that holds every row |
| AdminLists.PagesTile | server/routes/admin.routes.ts:164-201 | every row falls on exactly one page, between 1 and the page count |
| AdminLists.WindowEnd | server/routes/admin.routes.ts:163-164 | a page's window ends at page * limit, exactly where the next page's window starts |
| AdminLists.Window | server/routes/admin.routes.ts:164-179 | skip then take: at most `limit` rows, the ones from position (page-1)*limit on |
| AdminLists.LowerAll | server/routes/admin.routes.ts:170-171 | case folding keeps the length and folds each character |
| AdminLists.UserList | server/routes/admin.routes.ts:161-207 | the page is the skip/take window of the matching users in newest-first order, each reduced to id, username, email, role and createdAt (no password digest, no names); it holds min(limit, total - skip) rows, none past the end; the total counts every match |
| AdminLists.UserRows | server/routes/admin.routes.ts:175-192 | the rows the listing reads: matching users only, newest first, the skip/take window of all matches, and the count of all matches |
| AdminLists.Summaries | server/routes/admin.routes.ts:180-189 | the select maps each row, in order, to its id, username, email, role and createdAt |
| AdminLists.SummaryHidesSecrets | server/routes/admin.routes.ts:180-189 | two users have the same summary exactly when they differ at most in password, first name and last name |
| AdminLists.MediaList | server/routes/admin.routes.ts:257-306 | any status filter answers 500; otherwise the page is the skip/take window of the matching posts in newest-first order, and the total counts every match |
| AdminRouter.Dispatch | server/routes/admin.routes.ts:7-353 | a request runs the first registered route whose verb and pattern match, and nothing when none does |
| AdminRouter.ShadowedNeverRuns | server/routes/admin.routes.ts:161-353 | a route repeating an earlier route's verb and pattern never runs |
| AdminRouter.FirstMatchRuns | server/routes/admin.routes.ts:7-353 | a route that matches, with no earlier route matching, is the one whose handler runs |
| AdminRouter.AsWrittenRanks | server/routes/admin.routes.ts:7-353 | the registrations appear in source order, one per handler |
| AdminRouter.AsWrittenOnce | server/routes/admin.routes.ts:7-353 | no handler is registered twice |
| AdminRouter.UnreachableAsWritten | server/routes/admin.routes.ts:161-353 | as registered, the user listing, the media listing and the media delete never run |
| AdminRouter.Sample | server/routes/admin.routes.ts:7-353 | every pattern matches some request path |
| AdminRouter.DistinctNoEarlier | server/routes/admin.routes.ts:7-353 | on distinct paths, no earlier route catches a later route's request |
| AdminRouter.DistinctAllReachable | server/routes/admin.routes.ts:7-353 | on distinct paths, every handler runs for its own request |
| AdminRouter.PostsAfterParamShadowed | server/routes/admin.routes.ts:209 | a GET /posts registered after GET /:id is caught by the user-detail route |
| AdminRouter.AsWrittenShort | server/routes/admin.routes.ts:7-353 | no registered pattern has more than two segments |
| AdminRouter.PendingApprovalsCaught | server/routes/admin.routes.ts:209 | as registered, GET /pending-approvals runs the user-detail route |
| AdminRouter.ModerationCallsUnrouted | server/routes/admin.routes.ts:308-342 | as registered, PUT /posts/:id/approve and PUT /posts/:id/reject match no route |
| RouteGuard.Decide | frontend/src/middleware.ts:9-22 | a signed-in visit to /signin, /signup or / goes to /home; a signed-out visit to /create, /home or /admin-dashboard goes to /signin; anything else passes |
| RouteGuard.Intercept | frontend/src/middleware.ts:31-33 | unmatched paths always pass, and every redirect targets a matched path |
| RouteGuard.NoRedirectLoop | frontend/src/middleware.ts:14-20 | a redirect target is never redirected again under the same token state |
| RouteGuard.OnlySigninIntercepted | frontend/src/middleware.ts:14-33 | of the signed-in redirect pages, only /signin is ever intercepted |
| ProfilePage.WithStatus | frontend/src/components/ProfilePageComponent.tsx:51-60 | the filtered list holds exactly the posts with that status, in their original order |
| ProfilePage.Split | frontend/src/components/ProfilePageComponent.tsx:51-60 | the created, pending and rejected lists hold exactly the APPROVED, PENDING and REJECTED posts; missing posts give three empty lists |
| ProfilePage.SplitPartitions | frontend/src/components/ProfilePageComponent.tsx:51-60 | the three lists together are a permutation of the posts, so their lengths sum to the post count |
| ProfilePage.IsOwnProfile | frontend/src/components/ProfilePageComponent.tsx:132 | own profile iff the two ids are equal, counting two absent ids as equal |
| ProfilePage.Badge | frontend/src/components/ProfilePageComponent.tsx:192-208 | a badge shows iff its list is non-empty, and then shows the list's length |
| ProfilePage.Tabs | frontend/src/components/ProfilePageComponent.tsx:183-210 | Created and Saved always show; Pending and Rejected show iff it is the viewer's own profile, each with its list's badge |
| ProfilePage.VisitorSeesNoModeration | frontend/src/components/ProfilePageComponent.tsx:183-210 | a visitor's tabs do not depend on the lists at all |
| PostPage.AfterAdd | frontend/src/components/PostPageComponent.tsx:65-68 | after an add, the list is the new comment followed by the old list (empty when absent) |
| PostPage.AfterDelete | frontend/src/components/PostPageComponent.tsx:83-86 | after a delete, the list holds exactly the old entries with another id, in their order |
| PostPage.AfterDeleteCounts | frontend/src/components/PostPageComponent.tsx:83-86 | the filter keeps every entry with another id exactly as many times as it occurred and drops every entry with the deleted id |
| PostPage.AfterDeleteAbsent | frontend/src/components/PostPageComponent.tsx:83-86 | deleting an id that is not in the list leaves the list unchanged |
| PostPage.AddThenDelete | frontend/src/components/PostPageComponent.tsx:65-86 | deleting a comment just added gives back the old list |
| PostPage.DeleteCount | frontend/src/components/PostPageComponent.tsx:263 | with distinct ids, deleting a present id lowers the header count by exactly one |
| PostPage.ShowDeleteMenu | frontend/src/components/PostPageComponent.tsx:177 | the delete menu shows iff a session exists and its user owns the post |
| PostPage.Displayed | frontend/src/components/PostPageComponent.tsx:225-230 | the heading and the description are never blank: the title or description itself, or its placeholder ("Untitled Pin", "No description available.") when empty |
| PostPage.DisplayedStable | frontend/src/components/PostPageComponent.tsx:225-230 | the fallback is idempotent, and the placeholder shows exactly when the text is empty or already equals it |

## Left out

- Prisma, bcrypt and jsonwebtoken are not part of this model. Their observable effects are the store maps, `Crypto.Hasher` and `Crypto.Jwt`, and their failures are the 500 branches. bcrypt's random salt is not modelled: the hasher is a fixed function.
- The Prisma schema is not part of this model, so column defaults and cascade behaviour are `Database.DbConfig`. No notification foreign key to posts is assumed.
- The `include`/`select` joins that add a username, email, post title or `_count` to a response are not modelled. Neither are the `savedPosts` / `SavedPost` relation and the `totalLikes` `_sum` aggregate.
- The date-based analytics are not modelled: `userGrowth`, `activeUsers`, `postsByCategory`, `topPosts` and `uploadsOverTime` (server/routes/admin.routes.ts:51-73, 103-125). They depend on the clock or are computed by the database.
- Express matches literal path segments case-insensitively by default and ignores a trailing slash. The model's dispatch compares segments exactly, on paths given already split and normalized (no trailing slash, no case folding), so `AdminRouter.Dispatch` says nothing about /Admin/Users or /users/.
- `Promise.all` is read as a sequence of independent reads, since the handlers do not write between them.
- A failing read is not modelled: nothing in the model makes a `findMany`, `findUnique` or `count` throw, so the catch blocks of the read-only handlers have no 500 branch. These are `NotificationRoutes.List` and `Count`, `PostRoutes.PublicList` and `GetById`, `UserRoutes.Me`, and `AdminRoutes.PendingApproval`, `Dashboard`, `UserAnalytics`, `GetUserDetail` and `MediaCounts`. The same holds for `AdminLists.UserList` and the unfiltered `AdminLists.MediaList`.
- Query strings are modelled already parsed. `Number()` on a page or limit, NaN, and floating-point `Math.ceil` are left out: page and limit are positive integers and the ceiling is integer division.
- AdminLists.UserList: requires page and limit of at least 1, the integer reading of the query string above.
- AdminLists.MediaList: requires page and limit of at least 1, for the same reason.
- A `role` query value that is not a role name is left out: the model's filter is a role or nothing. In the source such a value makes the query throw.
- AdminLists.LowerAll: folds ASCII letters only; the database's case-insensitive `contains` may fold more characters.
- String lengths are counted in Dafny characters. zod counts UTF-16 code units, which differ for characters outside the Basic Multilingual Plane.
- UserRoutes.Signin: requires usernames to be unique in the store. That is the database's unique constraint, which `findUnique` relies on.
- UserRoutes.FindByUsername: requires the same uniqueness.
- A comment `text` that is a non-string truthy value is left out: the body's text is an optional string.
- The frontend's delete on a post whose `comments` field is missing is left out: `PostPage.AfterDelete` takes a list.
- RouteGuard.Intercept: models only the decision function inside `withAuth`. The library's own redirect of signed-out users, which runs before it, is not part of this model. Neither is its handling of its configured sign-in page (`pages.signIn`, /signin): if the library answers that page itself without calling the decision function, the redirect of a signed-in /signin visit that `RouteGuard.OnlySigninIntercepted` describes never happens.
- The admin dashboard page also calls GET /admin/pending-approvals (frontend/src/app/(admin)/admin-dashboard/page.tsx:64), PUT /admin/posts/:id/approve (line 77) and PUT /admin/posts/:id/reject (line 87). The GET is caught by GET /:id and looks up a user with that id (`AdminRouter.PendingApprovalsCaught`); the two PUTs match no registered route (`AdminRouter.ModerationCallsUnrouted`). `AdminRouter.Distinct` keeps the server's own paths for those three handlers.
- The file upload route (`server/routes/cloudinary.route.ts`), server bootstrap and seeding, rendering-only components, toasts, clipboard and `navigator.share` are not modelled. They are I/O or presentation.
- Listing handlers (feed, pending queue, listings, detail) are methods, because selecting rows from a map needs a loop. Their results are stated by their ensures, and lemmas about them are stated over the counting functions they agree with.

## Findings

| source | as written | input that shows it | evidently intended | confidence | as-written member | corrected member |
|---|---|---|---|---|---|---|
| server/routes/admin.routes.ts:35 | the dashboard's `pendingPosts` is `totalPosts - approvedPosts`, so it also counts REJECTED posts | a store with one REJECTED post and no other post: the dashboard reports 1 pending | the number of PENDING posts, as GET /media computes it | not executed | AdminRoutes.OverviewCountsRejectedAsPending | AdminRoutes.OverviewCountsCorrected |
| server/routes/user.routes.ts:169-177 | PUT /me writes the new password unhashed, while signin compares it against a digest | any successful update, on a consistent store, under a hasher that accepts only the digest: for instance user "u1" (alice1, digest of password1) updates to alice2/password2 under the digest "#" + p, and signin with alice2/password2 then answers 401 | hash the new password as signup does, so the user can sign in again | not executed | UserRoutes.UpdateMeLocksOut | UserRoutes.UpdateMeHashedThenSignin |
| server/routes/admin.routes.ts:161, 246, 257, 344 | the user listing and the media listing are registered as GET "/" after the dashboard's GET "/", and the media delete as DELETE "/:id" after the user delete, so Express never reaches them | GET / always runs the dashboard; DELETE /<id> always deletes a user | distinct paths, as the admin dashboard page calls them: GET /admin/users/list, GET /admin/posts, DELETE /admin/users/:id and DELETE /admin/posts/:id (frontend/src/app/(admin)/admin-dashboard/page.tsx:49, 58, 101, 112), with GET /posts registered before GET /:id | not executed | AdminRouter.UnreachableAsWritten | AdminRouter.DistinctAllReachable |

=== FILE: admin.dfy ===
/** The admin router's moderation and dashboard handlers. Approve and reject
    are one `post.update` each: they overwrite the status whatever it was,
    read no request body and write no notification. */
module AdminRoutes {
  import opened Types
  import opened Listing
  import Database

  /** `post.update({ where: { id }, data: { status } })`: throws (500, no
      write) when the id is unknown. */
  function SetStatus(s: Store, id: Id, st: PostStatus): (r: Reply<Post>)
    ensures r.status == OK <==> id in s.posts
    ensures r.status != OK ==> r.status == INTERNAL_ERROR && r.store == s && r.body.None?
    ensures r.status == OK ==>
      && r.body == Some(s.posts[id].(status := st))
      && r.store.posts == s.posts[id := r.body.value]
    ensures r.store.users == s.users && r.store.comments == s.comments
    ensures r.store.notifications == s.notifications
  {
    if id in s.posts then
      var p := s.posts[id].(status := st);
      Reply(OK, Some(p), s.(posts := s.posts[id := p]))
    else
      Reply(INTERNAL_ERROR, None, s)
  }

  /** PUT /:id/approve. */
  function Approve(s: Store, id: Id): (r: Reply<Post>)
    ensures r.status == OK <==> id in s.posts
    ensures r.status != OK ==> r.status == INTERNAL_ERROR && r.store == s
    ensures r.store.posts.Keys == s.posts.Keys
    ensures r.status == OK ==> r.store.posts[id].status == APPROVED
    ensures forall k :: k in s.posts && k != id ==> r.store.posts[k] == s.posts[k]
    ensures r.status == OK ==> r.store.posts[id] == s.posts[id].(status := APPROVED)
    ensures r.store.users == s.users && r.store.comments == s.comments
    ensures r.store.notifications == s.notifications
  {
    SetStatus(s, id, APPROVED)
  }

  /** PUT /:id/reject. The handler never reads the request body, so the
      operator's message has nowhere to go. */
  function Reject(s: Store, id: Id): (r: Reply<Post>)
    ensures r.status == OK <==> id in s.posts
    ensures r.status != OK ==> r.status == INTERNAL_ERROR && r.store == s
    ensures r.store.posts.Keys == s.posts.Keys
    ensures r.status == OK ==> r.store.posts[id].status == REJECTED
    ensures forall k :: k in s.posts && k != id ==> r.store.posts[k] == s.posts[k]
    ensures r.status == OK ==> r.store.posts[id] == s.posts[id].(status := REJECTED)
    ensures r.store.users == s.users && r.store.comments == s.comments
    ensures r.store.notifications == s.notifications
  {
    SetStatus(s, id, REJECTED)
  }

  /** Moderation is a plain overwrite: approving is idempotent, and of two
      decisions on one post the later wins, from any earlier status. */
  lemma ModerationOverwrites(s: Store, id: Id)
    requires id in s.posts
    ensures Approve(Approve(s, id).store, id) == Approve(s, id)
    ensures Reject(Approve(s, id).store, id).store == Reject(s, id).store
    ensures Approve(Reject(s, id).store, id).store == Approve(s, id).store
  {
    var p := s.posts[id];
    assert p.(status := APPROVED).(status := APPROVED) == p.(status := APPROVED);
    assert p.(status := APPROVED).(status := REJECTED) == p.(status := REJECTED);
    assert p.(status := REJECTED).(status := APPROVED) == p.(status := APPROVED);
  }

  /** REJECTED is not a final state: a rejected post can still be approved. */
  lemma RejectedCanBeApproved(s: Store, id: Id)
    requires id in s.posts && s.posts[id].status == REJECTED
    ensures Approve(s, id).status == OK && Approve(s, id).store.posts[id].status == APPROVED
  {
  }

  lemma ModerationKeepsValid(s: Store, id: Id, st: PostStatus)
    requires Database.Valid(s)
    ensures Database.Valid(SetStatus(s, id, st).store)
  {
    var t := SetStatus(s, id, st).store;
    if id in s.posts {
      assert forall k :: k in t.posts ==> t.posts[k].id == s.posts[k].id && t.posts[k].userId == s.posts[k].userId;
      assert t.posts.Keys == s.posts.Keys;
    }
  }

  /** GET /pending-approval. */
  method PendingApproval(s: Store) returns (status: int, posts: seq<Post>)
    ensures status == OK
    ensures NewestFirst(posts, PostStamp)
    ensures forall p :: p in posts <==> p in s.posts.Values && p.status == PENDING
    ensures |posts| == |StatusIds(s.posts, PENDING)|
  {
    var pending := (p: Post) => p.status == PENDING;
    posts := SelectNewestFirst(s.posts, pending, PostStamp);
    assert Selected(s.posts, pending) == StatusIds(s.posts, PENDING);
    status := OK;
  }

  function StatusIds(posts: map<Id, Post>, st: PostStatus): set<Id> {
    set k | k in posts && posts[k].status == st
  }

  /** Every post has exactly one of the three statuses. */
  lemma StatusPartition(posts: map<Id, Post>)
    ensures |posts| == |StatusIds(posts, APPROVED)| + |StatusIds(posts, PENDING)| + |StatusIds(posts, REJECTED)|
  {
    var a, p, r := StatusIds(posts, APPROVED), StatusIds(posts, PENDING), StatusIds(posts, REJECTED);
    assert posts.Keys == a + p + r;
    assert a * p == {} && (a + p) * r == {};
  }

  datatype Overview = Overview(
    totalUsers: nat, totalPosts: nat, totalComments: nat, approvedPosts: nat, pendingPosts: int)

  /** The counters of GET / (the first registration). `pendingPosts` is
      computed as total minus approved. */
  function OverviewCounts(s: Store): (o: Overview)
    ensures o.totalUsers == |s.users| && o.totalPosts == |s.posts| && o.totalComments == |s.comments|
    ensures o.approvedPosts == |StatusIds(s.posts, APPROVED)|
    ensures o.pendingPosts == |StatusIds(s.posts, PENDING)| + |StatusIds(s.posts, REJECTED)|
  {
    StatusPartition(s.posts);
    Overview(|s.users|, |s.posts|, |s.comments|, |StatusIds(s.posts, APPROVED)|,
             |s.posts| - |StatusIds(s.posts, APPROVED)|)
  }

  /** The dashboard counter as its label says: PENDING posts only. */
  function OverviewCountsCorrected(s: Store): (o: Overview)
    ensures o.pendingPosts == |StatusIds(s.posts, PENDING)|
    ensures o.pendingPosts == MediaCounts(s).pendingPosts
    ensures o.approvedPosts + o.pendingPosts + |StatusIds(s.posts, REJECTED)| == o.totalPosts
  {
    StatusPartition(s.posts);
    OverviewCounts(s).(pendingPosts := |StatusIds(s.posts, PENDING)|)
  }

  /** One rejected post and nothing else: the dashboard reports one
      pending post although none is pending. */
  lemma OverviewCountsRejectedAsPending()
    ensures var s := Store(map[], map["p" := Post("p", "u", "t", "d", "i", "c", REJECTED, 0, 0)], map[], map[]);
      OverviewCounts(s).pendingPosts == 1 && |StatusIds(s.posts, PENDING)| == 0
  {
    var s := Store(map[], map["p" := Post("p", "u", "t", "d", "i", "c", REJECTED, 0, 0)], map[], map[]);
    assert StatusIds(s.posts, REJECTED) == {"p"};
    assert StatusIds(s.posts, PENDING) == {};
  }

  /** GET /: the counters plus the ten newest posts. */
  method Dashboard(s: Store) returns (status: int, o: Overview, recent: seq<Post>)
    ensures status == OK && o == OverviewCounts(s)
    ensures |recent| == if |s.posts| < 10 then |s.posts| else 10
    ensures NewestFirst(recent, PostStamp)
    ensures forall p :: p in recent ==> p in s.posts.Values
    ensures forall p :: p in s.posts.Values && p !in recent ==> |recent| == 10 && PostStamp(p) <= PostStamp(recent[9])
    ensures exists all: seq<Post> ::
      && NewestFirst(all, PostStamp) && |all| == |s.posts|
      && (forall p :: p in all <==> p in s.posts.Values)
      && recent == Take(all, 10)
  {
    var any := (p: Post) => true;
    var total;
    recent, total := SelectNewest(s.posts, any, PostStamp, 10);
    assert Selected(s.posts, any) == s.posts.Keys;
    o := OverviewCounts(s);
    status := OK;
  }

  datatype UserCounts = UserCounts(totalUsers: nat, adminCount: nat, regularUsers: int)

  function RoleIds(users: map<Id, User>, role: Role): set<Id> {
    set k | k in users && users[k].role == role
  }

  /** The counters of GET /users; the date-based figures are left out. */
  function UserAnalytics(s: Store): (c: UserCounts)
    ensures c.totalUsers == |s.users| && c.adminCount == |RoleIds(s.users, ADMIN)|
    ensures c.regularUsers == |RoleIds(s.users, USER)|
    ensures c.adminCount + c.regularUsers == c.totalUsers
  {
    var a, u := RoleIds(s.users, ADMIN), RoleIds(s.users, USER);
    assert s.users.Keys == a + u && a * u == {};
    UserCounts(|s.users|, |a|, |s.users| - |a|)
  }

  datatype MediaStats = MediaStats(totalPosts: nat, approvedPosts: nat, pendingPosts: nat, totalComments: nat)

  /** The counters of GET /media: here `pendingPosts` counts PENDING only. */
  function MediaCounts(s: Store): (m: MediaStats)
    ensures m.totalPosts == |s.posts| && m.totalComments == |s.comments|
    ensures m.approvedPosts == |StatusIds(s.posts, APPROVED)| && m.pendingPosts == |StatusIds(s.posts, PENDING)|
    ensures m.pendingPosts <= OverviewCounts(s).pendingPosts
    ensures m.pendingPosts == OverviewCounts(s).pendingPosts <==> StatusIds(s.posts, REJECTED) == {}
  {
    MediaStats(|s.posts|, |StatusIds(s.posts, APPROVED)|, |StatusIds(s.posts, PENDING)|, |s.comments|)
  }

  /** A user as GET /:id returns it: every column except the password. */
  datatype UserView = UserView(
    id: Id, username: string, email: string, role: Role, firstname: string, lastname: string, createdAt: int)

  function WithoutPassword(u: User): UserView {
    UserView(u.id, u.username, u.email, u.role, u.firstname, u.lastname, u.createdAt)
  }

  /** The view carries no trace of the password: two users that differ
      only in their password look the same, and any other difference shows. */
  lemma ViewHidesOnlyPassword(u: User, v: User)
    ensures WithoutPassword(u) == WithoutPassword(v) <==> u.(password := v.password) == v
  {
  }

  datatype UserDetail = UserDetail(
    user: UserView, posts: seq<Post>, comments: seq<Comment>, postCount: nat, commentCount: nat)

  /** The ten newest posts of user `id`, and how many it has. */
  method RecentPostsOf(s: Store, id: Id) returns (posts: seq<Post>, count: nat)
    ensures count == |set k | k in s.posts && s.posts[k].userId == id|
    ensures |posts| == if count < 10 then count else 10
    ensures NewestFirst(posts, PostStamp)
    ensures forall p :: p in posts ==> p in s.posts.Values && p.userId == id
    ensures forall p :: p in s.posts.Values && p.userId == id && p !in posts ==>
      |posts| == 10 && PostStamp(p) <= PostStamp(posts[9])
    ensures exists all: seq<Post> ::
      && NewestFirst(all, PostStamp) && |all| == count
      && (forall p :: p in all <==> p in s.posts.Values && p.userId == id)
      && posts == Take(all, 10)
  {
    var own := (p: Post) => p.userId == id;
    posts, count := SelectNewest(s.posts, own, PostStamp, 10);
    assert Selected(s.posts, own) == set k | k in s.posts && s.posts[k].userId == id;
  }

  /** The ten newest comments of user `id`, and how many it has. */
  method RecentCommentsOf(s: Store, id: Id) returns (comments: seq<Comment>, count: nat)
    ensures count == |set k | k in s.comments && s.comments[k].userId == id|
    ensures |comments| == if count < 10 then count else 10
    ensures NewestFirst(comments, CommentStamp)
    ensures forall c :: c in comments ==> c in s.comments.Values && c.userId == id
    ensures forall c :: c in s.comments.Values && c.userId == id && c !in comments ==>
      |comments| == 10 && CommentStamp(c) <= CommentStamp(comments[9])
    ensures exists all: seq<Comment> ::
      && NewestFirst(all, CommentStamp) && |all| == count
      && (forall c :: c in all <==> c in s.comments.Values && c.userId == id)
      && comments == Take(all, 10)
  {
    var own := (c: Comment) => c.userId == id;
    comments, count := SelectNewest(s.comments, own, CommentStamp, 10);
    assert Selected(s.comments, own) == set k | k in s.comments && s.comments[k].userId == id;
  }

  /** GET /:id: 404 for an unknown id, otherwise the user without the
      password, with its ten newest posts and comments and the counts. */
  method GetUserDetail(s: Store, id: Id) returns (status: int, detail: Option<UserDetail>)
    ensures status == NOT_FOUND <==> id !in s.users
    ensures status == NOT_FOUND ==> detail.None?
    ensures status != NOT_FOUND ==> status == OK && detail.Some?
    ensures status == OK ==> detail.value.user == WithoutPassword(s.users[id])
    ensures status == OK ==>
      var d := detail.value;
      && d.postCount == |set k | k in s.posts && s.posts[k].userId == id|
      && |d.posts| == (if d.postCount < 10 then d.postCount else 10)
      && NewestFirst(d.posts, PostStamp)
      && (forall p :: p in d.posts ==> p in s.posts.Values && p.userId == id)
      && (forall p :: p in s.posts.Values && p.userId == id && p !in d.posts ==>
            |d.posts| == 10 && PostStamp(p) <= PostStamp(d.posts[9]))
      && (exists all: seq<Post> ::
            && NewestFirst(all, PostStamp) && |all| == d.postCount
            && (forall p :: p in all <==> p in s.posts.Values && p.userId == id)
            && d.posts == Take(all, 10))
    ensures status == OK ==>
      var d := detail.value;
      && d.commentCount == |set k | k in s.comments && s.comments[k].userId == id|
      && |d.comments| == (if d.commentCount < 10 then d.commentCount else 10)
      && NewestFirst(d.comments, CommentStamp)
      && (forall c :: c in d.comments ==> c in s.comments.Values && c.userId == id)
      && (forall c :: c in s.comments.Values && c.userId == id && c !in d.comments ==>
            |d.comments| == 10 && CommentStamp(c) <= CommentStamp(d.comments[9]))
      && (exists all: seq<Comment> ::
            && NewestFirst(all, CommentStamp) && |all| == d.commentCount
            && (forall c :: c in all <==> c in s.comments.Values && c.userId == id)
            && d.comments == Take(all, 10))
  {
    if id !in s.users {
      return NOT_FOUND, None;
    }
    var posts, postCount := RecentPostsOf(s, id);
    var comments, commentCount := RecentCommentsOf(s, id);
    status := OK;
    detail := Some(UserDetail(WithoutPassword(s.users[id]), posts, comments, postCount, commentCount));
  }

  /** DELETE /:id (the first registration, so: delete a user). */
  function DeleteUser(s: Store, cfg: Database.DbConfig, id: Id): (r: Outcome)
    ensures r.status == OK || r.status == INTERNAL_ERROR
    ensures r.status == OK <==> Database.DeleteUser(s, cfg, id).Some?
    ensures r.status == OK ==> r.store == Database.DeleteUser(s, cfg, id).value
    ensures r.status == OK ==> r.store.users.Keys == s.users.Keys - {id}
    ensures r.status == OK ==> forall k :: k in r.store.users ==> r.store.users[k] == s.users[k]
    ensures r.status != OK ==> r.store == s
  {
    match Database.DeleteUser(s, cfg, id)
    case Some(t) => Outcome(OK, t)
    case None => Outcome(INTERNAL_ERROR, s)
  }

  /** DELETE /:id (the second registration, which Express never reaches):
      delete a post in any status. */
  function DeleteMedia(s: Store, cfg: Database.DbConfig, id: Id): (r: Outcome)
    ensures r.status == OK || r.status == INTERNAL_ERROR
    ensures r.status == OK <==> Database.DeletePost(s, cfg, id).Some?
    ensures r.status == OK ==> r.store == Database.DeletePost(s, cfg, id).value
    ensures r.status == OK ==> r.store.posts.Keys == s.posts.Keys - {id}
    ensures r.status == OK ==> forall k :: k in r.store.posts ==> r.store.posts[k] == s.posts[k]
    ensures r.status != OK ==> r.store == s
    ensures r.store.users == s.users && r.store.notifications == s.notifications
  {
    match Database.DeletePost(s, cfg, id)
    case Some(t) => Outcome(OK, t)
    case None => Outcome(INTERNAL_ERROR, s)
  }

  /** A deleted user is gone: deleting it again answers 500 and changes
      nothing. */
  lemma DeleteUserTwice(s: Store, cfg: Database.DbConfig, id: Id)
    requires DeleteUser(s, cfg, id).status == OK
    ensures var t := DeleteUser(s, cfg, id).store;
      id !in t.users && DeleteUser(t, cfg, id) == Outcome(INTERNAL_ERROR, t)
  {
  }

  /** A deleted post is gone: looking it up answers null, and deleting it
      again answers 500. */
  lemma DeleteMediaThenLookup(s: Store, cfg: Database.DbConfig, id: Id)
    requires DeleteMedia(s, cfg, id).status == OK
    ensures var t := DeleteMedia(s, cfg, id).store;
      && id !in t.posts
      && (forall k :: k in t.comments ==> t.comments[k].postId != id)
      && DeleteMedia(t, cfg, id) == Outcome(INTERNAL_ERROR, t)
  {
  }
}

=== FILE: admin_lists.dfy ===
/** The two paginated listings of the admin router (users, then posts). Both
    are registered as GET "/" after the dashboard, so Express never runs
    them; they are modelled as standalone handlers. Page and limit are
    positive integers here, and the ceiling is integer division. */
module AdminLists {
  import opened Types
  import opened Listing

  datatype PageInfo = PageInfo(total: nat, page: nat, limit: nat, totalPages: nat)

  /** `(page - 1) * limit`. */
  function Skip(page: nat, limit: nat): (skip: nat)
    requires page >= 1
  {
    (page - 1) * limit
  }

  /** `Math.ceil(total / limit)`. */
  function PageCount(total: nat, limit: nat): (pages: nat)
    requires limit >= 1
    ensures pages * limit >= total
    ensures pages >= 1 ==> (pages - 1) * limit < total
    ensures pages == 0 <==> total == 0
  {
    (total + limit - 1) / limit
  }

  /** Multiplying by a positive number keeps a strict order. */
  lemma MulStrict(a: int, b: int, c: int)
    requires c > 0
    ensures a < b <==> a * c < b * c
  {
    if a < b {
      assert b * c == a * c + (b - a) * c;
    } else {
      assert a * c == b * c + (a - b) * c;
    }
  }

  /** The pages 1..PageCount tile the result: row i sits on exactly one
      page, the one whose window [skip, skip + limit) contains it. */
  lemma PagesTile(total: nat, limit: nat, i: nat)
    requires limit >= 1 && i < total
    ensures var page := i / limit + 1;
      && 1 <= page <= PageCount(total, limit)
      && Skip(page, limit) <= i < Skip(page, limit) + limit
    ensures forall page :: 1 <= page && Skip(page, limit) <= i < Skip(page, limit) + limit ==> page == i / limit + 1
  {
    var q := i / limit;
    var n := PageCount(total, limit);
    assert q * limit <= i < (q + 1) * limit;
    MulStrict(q, n, limit);
    forall page | 1 <= page && Skip(page, limit) <= i < Skip(page, limit) + limit
      ensures page == q + 1
    {
      assert Skip(page, limit) + limit == page * limit;
      MulStrict(page - 1, q + 1, limit);
      MulStrict(q, page, limit);
    }
  }

  /** For page, limit >= 1 the window ends at page * limit, where the
      next page's window starts: consecutive pages neither overlap nor
      leave a gap. */
  lemma WindowEnd(page: nat, limit: nat)
    requires page >= 1 && limit >= 1
    ensures Skip(page, limit) + limit == page * limit
    ensures Skip(page + 1, limit) == Skip(page, limit) + limit
  {
  }

  /** How many of `total` rows fall on a page: a full page, the tail of
      the last page, or none past the end. */
  function PageRows(total: nat, page: nat, limit: nat): nat
    requires page >= 1
  {
    var skip := Skip(page, limit);
    if total <= skip then 0 else if total - skip < limit then total - skip else limit
  }

  /** `skip` then `take: limit` over the ordered result. */
  function Window<T>(rows: seq<T>, page: nat, limit: nat): (w: seq<T>)
    requires page >= 1
    ensures |w| <= limit
    ensures forall i :: 0 <= i < |w| ==> Skip(page, limit) + i < |rows| && w[i] == rows[Skip(page, limit) + i]
    ensures Skip(page, limit) < |rows| ==> |w| == if |rows| - Skip(page, limit) < limit then |rows| - Skip(page, limit) else limit
    ensures Skip(page, limit) >= |rows| ==> w == []
  {
    var skip := Skip(page, limit);
    if skip >= |rows| then [] else Take(rows[skip..], limit)
  }

  /** ASCII case folding; the database's case-insensitive match may fold
      more characters. */
  function Lower(c: char): char {
    if 'A' <= c <= 'Z' then (c as int + 32) as char else c
  }

  function LowerAll(s: string): (r: string)
    ensures |r| == |s| && forall i :: 0 <= i < |s| ==> r[i] == Lower(s[i])
  {
    if s == [] then [] else [Lower(s[0])] + LowerAll(s[1..])
  }

  predicate ContainsAt(s: string, q: string, i: nat) {
    i + |q| <= |s| && s[i..i + |q|] == q
  }

  /** `{ contains: q, mode: "insensitive" }`. */
  predicate ContainsInsensitive(s: string, q: string) {
    exists i: nat | i <= |s| :: ContainsAt(LowerAll(s), LowerAll(q), i)
  }

  /** `if (x)` on an optional query string: absent or empty means no filter. */
  predicate Given(x: Option<string>) {
    x.Some? && x.value != ""
  }

  datatype UserQuery = UserQuery(role: Option<Role>, search: Option<string>, page: nat, limit: nat)

  predicate UserMatches(u: User, q: UserQuery) {
    && (q.role.Some? ==> u.role == q.role.value)
    && (Given(q.search) ==>
         ContainsInsensitive(u.username, q.search.value) || ContainsInsensitive(u.email, q.search.value))
  }

  /** A user as the listing's `select` returns it: id, username, email,
      role and creation time. No password digest, no names. */
  datatype UserSummary = UserSummary(id: Id, username: string, email: string, role: Role, createdAt: int)

  function Summarize(u: User): UserSummary {
    UserSummary(u.id, u.username, u.email, u.role, u.createdAt)
  }

  function SummaryStamp(u: UserSummary): int { u.createdAt }

  /** The `select` applied to every row of a page, in order. */
  function Summaries(rows: seq<User>): (r: seq<UserSummary>)
    ensures |r| == |rows| && forall i :: 0 <= i < |rows| ==> r[i] == Summarize(rows[i])
  {
    seq(|rows|, i requires 0 <= i < |rows| => Summarize(rows[i]))
  }

  /** The summary keeps no trace of the password or the names: two users
      that differ only there have the same summary, and any difference in
      a selected column shows. */
  lemma SummaryHidesSecrets(u: User, v: User)
    ensures Summarize(u) == Summarize(v) <==>
      u.(password := v.password, firstname := v.firstname, lastname := v.lastname) == v
  {
  }

  /** The rows the user listing reads: the matching users, newest first,
      cut to the requested page, with the count of all matches. */
  method UserRows(s: Store, q: UserQuery) returns (rows: seq<User>, info: PageInfo)
    requires q.page >= 1 && q.limit >= 1
    ensures |rows| <= q.limit && NewestFirst(rows, UserStamp)
    ensures forall u :: u in rows ==> u in s.users.Values && UserMatches(u, q)
    ensures info.total == |set k | k in s.users && UserMatches(s.users[k], q)|
    ensures info == PageInfo(info.total, q.page, q.limit, PageCount(info.total, q.limit))
    ensures |rows| == PageRows(info.total, q.page, q.limit)
    ensures exists all: seq<User> ::
      && NewestFirst(all, UserStamp) && |all| == info.total
      && (forall u :: u in all <==> u in s.users.Values && UserMatches(u, q))
      && rows == Window(all, q.page, q.limit)
  {
    var keep := (u: User) => UserMatches(u, q);
    var all := SelectNewestFirst(s.users, keep, UserStamp);
    assert Selected(s.users, keep) == set k | k in s.users && UserMatches(s.users[k], q);
    rows := Window(all, q.page, q.limit);
    assert forall i :: 0 <= i < |rows| ==> rows[i] in all;
    info := PageInfo(|all|, q.page, q.limit, PageCount(|all|, q.limit));
  }

  /** The first-shadowed GET "/" user listing: the page of matching rows,
      each reduced to the selected columns. */
  method UserList(s: Store, q: UserQuery) returns (status: int, users: seq<UserSummary>, info: PageInfo)
    requires q.page >= 1 && q.limit >= 1
    ensures status == OK
    ensures |users| <= q.limit && NewestFirst(users, SummaryStamp)
    ensures forall u :: u in users ==> exists v :: v in s.users.Values && UserMatches(v, q) && u == Summarize(v)
    ensures info.total == |set k | k in s.users && UserMatches(s.users[k], q)|
    ensures info == PageInfo(info.total, q.page, q.limit, PageCount(info.total, q.limit))
    ensures Skip(q.page, q.limit) < info.total ==> |users| > 0
    ensures |users| == PageRows(info.total, q.page, q.limit)
    ensures exists all: seq<User> ::
      && NewestFirst(all, UserStamp) && |all| == info.total
      && (forall u :: u in all <==> u in s.users.Values && UserMatches(u, q))
      && users == Summaries(Window(all, q.page, q.limit))
  {
    var rows;
    rows, info := UserRows(s, q);
    users := Summaries(rows);
    forall u | u in users
      ensures exists v :: v in s.users.Values && UserMatches(v, q) && u == Summarize(v)
    {
      var i :| 0 <= i < |users| && users[i] == u;
      assert rows[i] in rows;
    }
    status := OK;
  }

  datatype MediaQuery = MediaQuery(
    category: Option<string>, status: Option<string>, search: Option<string>, page: nat, limit: nat)

  predicate PostMatches(p: Post, q: MediaQuery) {
    && (Given(q.category) ==> p.category == q.category.value)
    && (Given(q.search) ==>
         ContainsInsensitive(p.title, q.search.value) || ContainsInsensitive(p.description, q.search.value))
  }

  /** The second-shadowed GET "/" post listing. A `status` query parameter
      is turned into a boolean filter on an enum column, which the client
      library refuses, so any status filter answers 500. */
  method MediaList(s: Store, q: MediaQuery) returns (status: int, posts: seq<Post>, info: Option<PageInfo>)
    requires q.page >= 1 && q.limit >= 1
    ensures status == INTERNAL_ERROR <==> q.status.Some?
    ensures status != INTERNAL_ERROR ==> status == OK && info.Some?
    ensures |posts| <= q.limit && NewestFirst(posts, PostStamp)
    ensures forall p :: p in posts ==> p in s.posts.Values && PostMatches(p, q)
    ensures status == OK ==> info.value.total == |set k | k in s.posts && PostMatches(s.posts[k], q)|
    ensures status == OK ==> info.value.totalPages == PageCount(info.value.total, q.limit)
    ensures status == OK ==> |posts| == PageRows(info.value.total, q.page, q.limit)
    ensures status == OK ==> exists all: seq<Post> ::
      && NewestFirst(all, PostStamp) && |all| == info.value.total
      && (forall p :: p in all <==> p in s.posts.Values && PostMatches(p, q))
      && posts == Window(all, q.page, q.limit)
  {
    if q.status.Some? {
      return INTERNAL_ERROR, [], None;
    }
    var keep := (p: Post) => PostMatches(p, q);
    var all := SelectNewestFirst(s.posts, keep, PostStamp);
    assert Selected(s.posts, keep) == set k | k in s.posts && PostMatches(s.posts[k], q);
    posts := Window(all, q.page, q.limit);
    assert forall i :: 0 <= i < |posts| ==> posts[i] in all;
    info := Some(PageInfo(|all|, q.page, q.limit, PageCount(|all|, q.limit)));
    status := OK;
  }
}

=== FILE: admin_router.dfy ===
/** Route registration on the admin router. Express tries routes in the
    order they were registered and runs the first whose verb and path
    pattern match; none of these handlers passes the request on. */
module AdminRouter {
  import opened Types

  datatype Verb = GET | POST | PUT | PATCH | DELETE

  /** A pattern segment: a literal, or a `:param` matching any non-empty
      segment. */
  datatype Segment = Lit(text: string) | Param

  datatype Handler =
    | Dashboard | UserAnalytics | MediaAnalytics | PendingApproval | UserList
    | UserDetail | DeleteUser | MediaList | ApprovePost | RejectPost | DeleteMedia

  datatype Route = Route(verb: Verb, pattern: seq<Segment>, handler: Handler)

  /** A request path, already cut at its slashes ("/" is the empty path). */
  type Path = seq<string>

  predicate SegmentMatches(g: Segment, part: string) {
    match g
    case Lit(t) => part == t
    case Param => part != ""
  }

  predicate PatternMatches(pattern: seq<Segment>, path: Path) {
    |pattern| == |path| && forall i :: 0 <= i < |path| ==> SegmentMatches(pattern[i], path[i])
  }

  /** The handler Express runs: the first registered route that matches. */
  function Dispatch(table: seq<Route>, verb: Verb, path: Path): (h: Option<Handler>)
    ensures h.Some? <==> exists i :: 0 <= i < |table| && table[i].verb == verb && PatternMatches(table[i].pattern, path)
    ensures h.Some? ==> exists i ::
      && 0 <= i < |table|
      && table[i].handler == h.value
      && table[i].verb == verb && PatternMatches(table[i].pattern, path)
      && forall j :: 0 <= j < i ==> !(table[j].verb == verb && PatternMatches(table[j].pattern, path))
  {
    if |table| == 0 then None
    else if table[0].verb == verb && PatternMatches(table[0].pattern, path) then Some(table[0].handler)
    else
      var h := Dispatch(table[1..], verb, path);
      assert forall i :: 0 < i < |table| ==> table[i] == table[1..][i - 1];
      h
  }

  /** The first matching route is the one that runs. */
  lemma {:induction false} FirstMatchRuns(table: seq<Route>, i: nat, verb: Verb, path: Path)
    requires i < |table| && table[i].verb == verb && PatternMatches(table[i].pattern, path)
    requires forall j :: 0 <= j < i ==> !(table[j].verb == verb && PatternMatches(table[j].pattern, path))
    ensures Dispatch(table, verb, path) == Some(table[i].handler)
  {
    if i > 0 {
      assert !(table[0].verb == verb && PatternMatches(table[0].pattern, path));
      forall j | 0 <= j < i - 1
        ensures !(table[1..][j].verb == verb && PatternMatches(table[1..][j].pattern, path))
      {
        assert table[1..][j] == table[j + 1];
      }
      FirstMatchRuns(table[1..], i - 1, verb, path);
    }
  }

  /** The admin router in registration order. */
  const AsWritten: seq<Route> := [
    Route(GET, [], Dashboard),
    Route(GET, [Lit("users")], UserAnalytics),
    Route(GET, [Lit("media")], MediaAnalytics),
    Route(GET, [Lit("pending-approval")], PendingApproval),
    Route(GET, [], UserList),
    Route(GET, [Param], UserDetail),
    Route(DELETE, [Param], DeleteUser),
    Route(GET, [], MediaList),
    Route(PUT, [Param, Lit("approve")], ApprovePost),
    Route(PUT, [Param, Lit("reject")], RejectPost),
    Route(DELETE, [Param], DeleteMedia)
  ]

  /** A route that repeats the verb and pattern of an earlier one never
      runs, as long as its handler is registered nowhere else. */
  lemma {:induction false} ShadowedNeverRuns(table: seq<Route>, i: nat, j: nat, verb: Verb, path: Path)
    requires i < j < |table|
    requires table[i].verb == table[j].verb && table[i].pattern == table[j].pattern
    requires forall k :: 0 <= k < |table| && k != j ==> table[k].handler != table[j].handler
    ensures Dispatch(table, verb, path) != Some(table[j].handler)
  {
  }

  /** Registration position of each handler in AsWritten. */
  function Rank(h: Handler): nat {
    match h
    case Dashboard => 0
    case UserAnalytics => 1
    case MediaAnalytics => 2
    case PendingApproval => 3
    case UserList => 4
    case UserDetail => 5
    case DeleteUser => 6
    case MediaList => 7
    case ApprovePost => 8
    case RejectPost => 9
    case DeleteMedia => 10
  }

  /** Every handler is registered once, at its rank. */
  lemma AsWrittenRanks(k: nat)
    requires k < |AsWritten|
    ensures Rank(AsWritten[k].handler) == k
  {
    assert k == 0 || k == 1 || k == 2 || k == 3 || k == 4 || k == 5 || k == 6 || k == 7 || k == 8 || k == 9 || k == 10;
  }

  /** AsWritten registers handler `AsWritten[j].handler` nowhere but at j. */
  lemma AsWrittenOnce(j: nat)
    requires j < |AsWritten|
    ensures forall k :: 0 <= k < |AsWritten| && k != j ==> AsWritten[k].handler != AsWritten[j].handler
  {
    forall k | 0 <= k < |AsWritten| && k != j
      ensures AsWritten[k].handler != AsWritten[j].handler
    {
      AsWrittenRanks(k);
      AsWrittenRanks(j);
    }
  }

  /** As registered, the user listing, the media listing and the media
      delete can never run: each repeats an earlier GET "/" or DELETE
      "/:id". */
  lemma UnreachableAsWritten(verb: Verb, path: Path)
    ensures Dispatch(AsWritten, verb, path) != Some(UserList)
    ensures Dispatch(AsWritten, verb, path) != Some(MediaList)
    ensures Dispatch(AsWritten, verb, path) != Some(DeleteMedia)
  {
    AsWrittenOnce(4);
    ShadowedNeverRuns(AsWritten, 0, 4, verb, path);
    AsWrittenOnce(7);
    ShadowedNeverRuns(AsWritten, 0, 7, verb, path);
    AsWrittenOnce(10);
    ShadowedNeverRuns(AsWritten, 6, 10, verb, path);
  }

  /** No registered pattern has more than two segments. */
  lemma AsWrittenShort(k: nat)
    requires k < |AsWritten|
    ensures |AsWritten[k].pattern| <= 2
  {
    assert k == 0 || k == 1 || k == 2 || k == 3 || k == 4 || k == 5 || k == 6 || k == 7 || k == 8 || k == 9 || k == 10;
  }

  /** The admin dashboard page's GET /pending-approvals is not the queue:
      GET /:id takes it for a user id. */
  lemma PendingApprovalsCaught()
    ensures Dispatch(AsWritten, GET, ["pending-approvals"]) == Some(UserDetail)
  {
    var path: Path := ["pending-approvals"];
    forall j | 0 <= j < 5
      ensures !(AsWritten[j].verb == GET && PatternMatches(AsWritten[j].pattern, path))
    {
      assert j == 0 || j == 1 || j == 2 || j == 3 || j == 4;
      assert path[0][0] == 'p' && path[0][16] == 's';
      assert |path[0]| == 17;
    }
    FirstMatchRuns(AsWritten, 5, GET, path);
  }

  /** The admin dashboard page's PUT /posts/:id/approve and
      PUT /posts/:id/reject match no registered route. */
  lemma ModerationCallsUnrouted(postId: string, action: string)
    ensures Dispatch(AsWritten, PUT, ["posts", postId, action]).None?
  {
    forall k | 0 <= k < |AsWritten|
      ensures !PatternMatches(AsWritten[k].pattern, ["posts", postId, action])
    {
      AsWrittenShort(k);
    }
  }

  /** The same handlers on distinct paths, at the paths the admin
      dashboard page calls for them: GET /users/list for the user listing,
      GET /posts and DELETE /posts/:id for the media listing and delete,
      DELETE /users/:id for the user delete. GET /posts is registered
      before GET /:id, which would otherwise catch it. */
  const Distinct: seq<Route> := [
    Route(GET, [], Dashboard),
    Route(GET, [Lit("users")], UserAnalytics),
    Route(GET, [Lit("media")], MediaAnalytics),
    Route(GET, [Lit("pending-approval")], PendingApproval),
    Route(GET, [Lit("users"), Lit("list")], UserList),
    Route(GET, [Lit("posts")], MediaList),
    Route(GET, [Param], UserDetail),
    Route(DELETE, [Lit("users"), Param], DeleteUser),
    Route(PUT, [Param, Lit("approve")], ApprovePost),
    Route(PUT, [Param, Lit("reject")], RejectPost),
    Route(DELETE, [Lit("posts"), Param], DeleteMedia)
  ]

  /** Placed after GET /:id, GET /posts would never run: the user-detail
      route takes "posts" for an id. */
  lemma PostsAfterParamShadowed()
    ensures Dispatch([Route(GET, [Param], UserDetail), Route(GET, [Lit("posts")], MediaList)], GET, ["posts"])
      == Some(UserDetail)
  {
  }

  /** A request that reaches each route: literals as written, "x" for a
      parameter. */
  function Sample(pattern: seq<Segment>): (path: Path)
    ensures PatternMatches(pattern, path)
  {
    if pattern == [] then []
    else [match pattern[0] case Lit(t) => t case Param => "x"] + Sample(pattern[1..])
  }

  /** With distinct paths no earlier route catches a later route's sample
      request. */
  lemma DistinctNoEarlier(i: nat, j: nat)
    requires j < i < |Distinct|
    ensures !(Distinct[j].verb == Distinct[i].verb && PatternMatches(Distinct[j].pattern, Sample(Distinct[i].pattern)))
  {
    assert j == 0 || j == 1 || j == 2 || j == 3 || j == 4 || j == 5 || j == 6 || j == 7 || j == 8 || j == 9;
    assert i == 1 || i == 2 || i == 3 || i == 4 || i == 5 || i == 6 || i == 7 || i == 8 || i == 9 || i == 10;
  }

  /** With distinct paths every handler runs for some request. */
  lemma DistinctAllReachable(i: nat)
    requires i < |Distinct|
    ensures Dispatch(Distinct, Distinct[i].verb, Sample(Distinct[i].pattern)) == Some(Distinct[i].handler)
  {
    forall j | 0 <= j < i
      ensures !(Distinct[j].verb == Distinct[i].verb && PatternMatches(Distinct[j].pattern, Sample(Distinct[i].pattern)))
    {
      DistinctNoEarlier(i, j);
    }
    FirstMatchRuns(Distinct, i, Distinct[i].verb, Sample(Distinct[i].pattern));
  }
}

=== FILE: auth.dfy ===
/** The two Express authorization middlewares. Both take the token from the
    Authorization header as element 1 of `header.split(" ")`, answer 400
    when there is none, and answer 403 when the token does not verify; the
    admin one verifies with the admin secret and also demands the role
    claim "ADMIN". A middleware either answers or hands the request on. */
module Auth {
  import opened Types
  import opened Crypto

  /** JavaScript's `s.split(" ")`: the maximal space-free pieces between
      single spaces, empty pieces included. */
  function SplitOnSpace(s: string): (parts: seq<string>)
    ensures |parts| >= 1
    ensures forall i :: 0 <= i < |parts| ==> ' ' !in parts[i]
    decreases |s|
  {
    if |s| == 0 then [""]
    else if s[0] == ' ' then [""] + SplitOnSpace(s[1..])
    else
      var rest := SplitOnSpace(s[1..]);
      [[s[0]] + rest[0]] + rest[1..]
  }

  /** `parts.join(" ")`. */
  function JoinWithSpace(parts: seq<string>): string
    requires |parts| >= 1
  {
    if |parts| == 1 then parts[0] else parts[0] + " " + JoinWithSpace(parts[1..])
  }

  /** Splitting loses nothing: joining the pieces gives the header back. */
  lemma {:induction false} JoinSplit(s: string)
    ensures JoinWithSpace(SplitOnSpace(s)) == s
    decreases |s|
  {
    if |s| == 0 {
    } else if s[0] == ' ' {
      JoinSplit(s[1..]);
      assert s == [' '] + s[1..];
    } else {
      var rest := SplitOnSpace(s[1..]);
      JoinSplit(s[1..]);
      if |rest| == 1 {
        assert s == [s[0]] + s[1..];
      } else {
        assert JoinWithSpace(rest) == rest[0] + " " + JoinWithSpace(rest[1..]);
        var parts := [[s[0]] + rest[0]] + rest[1..];
        assert parts[1..] == rest[1..];
        assert s == [s[0]] + s[1..];
      }
    }
  }

  /** Joining space-free pieces and splitting again gives the pieces back. */
  lemma {:induction false} SplitJoin(parts: seq<string>)
    requires |parts| >= 1
    requires forall i :: 0 <= i < |parts| ==> ' ' !in parts[i]
    ensures SplitOnSpace(JoinWithSpace(parts)) == parts
    decreases |JoinWithSpace(parts)|, |parts|
  {
    var w := parts[0];
    if |parts| == 1 {
      SplitWord(w, "", []);
      assert w + "" == w;
    } else {
      var tail := JoinWithSpace(parts[1..]);
      SplitJoin(parts[1..]);
      assert (" " + tail)[1..] == tail;
      SplitWord(w, " " + tail, parts[1..]);
      assert w + (" " + tail) == JoinWithSpace(parts);
      assert [w] + parts[1..] == parts;
    }
  }

  /** A space-free word in front of a remainder that is empty or starts
      with a space extends the remainder's first piece. */
  lemma {:induction false} SplitWord(w: string, rest: string, more: seq<string>)
    requires ' ' !in w
    requires rest == "" ==> more == []
    requires rest != "" ==> rest[0] == ' ' && SplitOnSpace(rest[1..]) == more
    ensures SplitOnSpace(w + rest) == [w] + more
    decreases |w|
  {
    if |w| == 0 {
      assert w + rest == rest;
      if rest != "" {
        assert SplitOnSpace(rest) == [""] + SplitOnSpace(rest[1..]);
      }
    } else {
      SplitWord(w[1..], rest, more);
      assert (w + rest)[1..] == w[1..] + rest;
      assert [w[0]] + w[1..] == w;
    }
  }

  /** `authHeaders?.split(" ")[1]`, with `!token` folded in: None when the
      header is absent, has no space, or the second piece is empty. */
  function BearerToken(header: Option<string>): (t: Option<string>)
    ensures t.Some? ==> t.value != "" && ' ' !in t.value
  {
    if header.None? then None
    else
      var parts := SplitOnSpace(header.value);
      if |parts| >= 2 && parts[1] != "" then Some(parts[1]) else None
  }

  /** The header the frontend sends, "Bearer " + token, yields the token. */
  lemma BearerRoundTrip(t: string)
    requires t != "" && ' ' !in t
    ensures BearerToken(Some("Bearer " + t)) == Some(t)
  {
    SplitJoin(["Bearer", t]);
    assert JoinWithSpace(["Bearer", t]) == "Bearer " + t;
  }

  /** The extracted token is exactly the text between the first and the
      second space (or the end of the header). */
  lemma BearerTokenLocated(h: string)
    requires BearerToken(Some(h)).Some?
    ensures exists scheme, rest ::
      && ' ' !in scheme
      && (rest == "" || rest[0] == ' ')
      && h == scheme + " " + BearerToken(Some(h)).value + rest
  {
    var parts := SplitOnSpace(h);
    JoinSplit(h);
    var rest := if |parts| == 2 then "" else " " + JoinWithSpace(parts[2..]);
    if |parts| > 2 {
      assert parts[1..][1..] == parts[2..];
    }
    assert JoinWithSpace(parts[1..]) == parts[1] + rest;
    assert h == parts[0] + " " + parts[1] + rest;
    assert ' ' !in parts[0];
    assert rest == "" || rest[0] == ' ';
  }

  /** The converse of BearerTokenLocated: a header made of a space-free
      scheme, a space, a space-free t and a rest that is empty or starts
      with a space yields t, unless t is empty. So "Bearer " carries no
      token (the middleware answers 400), and "Bearer t" or "Bearer t x"
      carries t. */
  lemma BearerTokenFound(scheme: string, t: string, rest: string)
    requires ' ' !in scheme && ' ' !in t
    requires rest == "" || rest[0] == ' '
    ensures BearerToken(Some(scheme + " " + t + rest)) == if t == "" then None else Some(t)
  {
    var more := if rest == "" then [] else SplitOnSpace(rest[1..]);
    SplitWord(t, rest, more);
    var tail := " " + t + rest;
    assert tail[1..] == t + rest;
    SplitWord(scheme, tail, [t] + more);
    assert scheme + " " + t + rest == scheme + tail;
  }

  /** An absent header and a bare "Bearer " both yield no token. */
  lemma MissingTokenCases()
    ensures BearerToken(None).None?
    ensures BearerToken(Some("Bearer ")).None?
  {
    BearerTokenFound("Bearer", "", "");
    assert "Bearer" + " " + "" + "" == "Bearer ";
  }

  /** A header with no space at all never carries a token. */
  lemma NoSpaceNoToken(h: string)
    requires ' ' !in h
    ensures BearerToken(Some(h)).None?
  {
    SplitJoin([h]);
  }

  /** What a middleware does with a request: answer it, or call `next()`
      with the caller's id stored on the request. */
  datatype Gate = Respond(status: int) | Next(principal: Id)

  /** adminMiddleware. */
  function AdminGate(j: Jwt, secrets: Secrets, header: Option<string>): (g: Gate)
    ensures g.Respond? ==> g.status == BAD_REQUEST || g.status == FORBIDDEN
    ensures g == Respond(BAD_REQUEST) <==> BearerToken(header).None?
    ensures g.Next? <==>
      && BearerToken(header).Some?
      && j.verify(BearerToken(header).value, secrets.admin).Some?
      && j.verify(BearerToken(header).value, secrets.admin).value.role == "ADMIN"
    ensures g.Next? ==> g.principal == j.verify(BearerToken(header).value, secrets.admin).value.id
  {
    match BearerToken(header)
    case None => Respond(BAD_REQUEST)
    case Some(token) =>
      match j.verify(token, secrets.admin)
      case None => Respond(FORBIDDEN)
      case Some(claims) => if claims.role != "ADMIN" then Respond(FORBIDDEN) else Next(claims.id)
  }

  /** authMiddleware: no role check. */
  function UserGate(j: Jwt, secrets: Secrets, header: Option<string>): (g: Gate)
    ensures g.Respond? ==> g.status == BAD_REQUEST || g.status == FORBIDDEN
    ensures g == Respond(BAD_REQUEST) <==> BearerToken(header).None?
    ensures g.Next? <==> BearerToken(header).Some? && j.verify(BearerToken(header).value, secrets.user).Some?
    ensures g.Next? ==> g.principal == j.verify(BearerToken(header).value, secrets.user).value.id
  {
    match BearerToken(header)
    case None => Respond(BAD_REQUEST)
    case Some(token) =>
      match j.verify(token, secrets.user)
      case None => Respond(FORBIDDEN)
      case Some(claims) => Next(claims.id)
  }

  /** With distinct secrets, a token signed for an admin passes the admin
      middleware and is refused (403) by the user middleware, and a token
      signed with the user secret is refused (403) by the admin one. */
  lemma SecretsSeparateTiers(j: Jwt, secrets: Secrets, c: Claims)
    requires JwtSound(j) && secrets.admin != secrets.user
    ensures c.role == "ADMIN" ==> AdminGate(j, secrets, Some("Bearer " + j.sign(c, secrets.admin))) == Next(c.id)
    ensures UserGate(j, secrets, Some("Bearer " + j.sign(c, secrets.admin))) == Respond(FORBIDDEN)
    ensures UserGate(j, secrets, Some("Bearer " + j.sign(c, secrets.user))) == Next(c.id)
    ensures AdminGate(j, secrets, Some("Bearer " + j.sign(c, secrets.user))) == Respond(FORBIDDEN)
  {
    BearerRoundTrip(j.sign(c, secrets.admin));
    BearerRoundTrip(j.sign(c, secrets.user));
  }
}

=== FILE: comments.dfy ===
/** The comment router: add a comment to a post and delete one's own
    comment, both behind the user middleware. */
module CommentRoutes {
  import opened Types
  import Database

  /** POST /post/:postId. The checks run in the handler's order: missing
      post id (400), missing or empty text (401), unknown post (400). The
      post's status is not consulted. A caller with no user row or a taken
      comment id makes the insert throw (500). */
  function Add(s: Store, caller: Id, postId: Id, text: Option<string>, newId: Id, now: int): (r: Reply<Comment>)
    ensures r.status in {OK, BAD_REQUEST, UNAUTHORIZED, INTERNAL_ERROR}
    ensures r.status == UNAUTHORIZED <==> postId != "" && (text.None? || text.value == "")
    ensures r.status == BAD_REQUEST <==>
      postId == "" || (text.Some? && text.value != "" && postId !in s.posts)
    ensures r.status != OK ==> r.store == s && r.body.None?
    ensures r.status == OK <==>
      && postId != "" && postId in s.posts && text.Some? && text.value != "" && caller in s.users && newId !in s.comments
    ensures r.status == OK ==>
      && r.body == Some(Comment(newId, text.value, caller, postId, now))
      && r.store.comments == s.comments[newId := r.body.value]
      && r.store.users == s.users && r.store.posts == s.posts
      && r.store.notifications == s.notifications
  {
    if postId == "" then Reply(BAD_REQUEST, None, s)
    else if text.None? || text.value == "" then Reply(UNAUTHORIZED, None, s)
    else if postId !in s.posts then Reply(BAD_REQUEST, None, s)
    else if caller !in s.users || newId in s.comments then Reply(INTERNAL_ERROR, None, s)
    else
      var c := Comment(newId, text.value, caller, postId, now);
      Reply(OK, Some(c), s.(comments := s.comments[newId := c]))
  }

  /** DELETE /:commentId. The delete's `where` names the id and the caller,
      so only the author's own comment goes; anything else throws (500). */
  function Delete(s: Store, caller: Id, commentId: Id): (r: Outcome)
    ensures r.status in {OK, BAD_REQUEST, INTERNAL_ERROR}
    ensures r.status == BAD_REQUEST <==> commentId == ""
    ensures r.status == OK <==>
      commentId != "" && commentId in s.comments && s.comments[commentId].userId == caller
    ensures r.status != OK ==> r.store == s
    ensures r.status == OK ==> r.store == s.(comments := s.comments - {commentId})
  {
    if commentId == "" then Outcome(BAD_REQUEST, s)
    else if commentId in s.comments && s.comments[commentId].userId == caller then
      Outcome(OK, s.(comments := s.comments - {commentId}))
    else Outcome(INTERNAL_ERROR, s)
  }

  /** No one's comment but the caller's can disappear. */
  lemma DeleteSparesOthers(s: Store, caller: Id, commentId: Id, k: Id)
    requires k in s.comments && s.comments[k].userId != caller
    ensures var t := Delete(s, caller, commentId).store;
      k in t.comments && t.comments[k] == s.comments[k]
  {
  }

  /** Deleting the comment just added (under its generated, non-empty id)
      restores the store. */
  lemma AddThenDelete(s: Store, caller: Id, postId: Id, text: Option<string>, newId: Id, now: int)
    requires Add(s, caller, postId, text, newId, now).status == OK && newId != ""
    ensures Delete(Add(s, caller, postId, text, newId, now).store, caller, newId) == Outcome(OK, s)
  {
    var t := Add(s, caller, postId, text, newId, now).store;
    assert t.comments - {newId} == s.comments;
  }

  lemma AddKeepsValid(s: Store, caller: Id, postId: Id, text: Option<string>, newId: Id, now: int)
    requires Database.Valid(s)
    ensures Database.Valid(Add(s, caller, postId, text, newId, now).store)
  {
  }

  lemma DeleteKeepsValid(s: Store, caller: Id, commentId: Id)
    requires Database.Valid(s)
    ensures Database.Valid(Delete(s, caller, commentId).store)
  {
  }
}

=== FILE: crypto.dfy ===
/** Stand-ins for the password-hashing and token libraries the server
    calls. Their code is not part of this model, so each is an arbitrary
    function held in a datatype; the properties the server silently relies
    on are stated as predicates and used only as lemma hypotheses. */
module Crypto {
  import opened Types

  /** bcrypt's `hash(password, rounds)` and `compare(password, digest)`. */
  datatype Hasher = Hasher(hash: string -> string, compare: (string, string) -> bool)

  /** A password always matches its own digest. */
  ghost predicate HasherSound(h: Hasher) {
    forall p :: h.compare(p, h.hash(p))
  }

  /** The claims the server puts into a token: `{ id, role }`. */
  datatype Claims = Claims(id: Id, role: string)

  /** jsonwebtoken's `sign(claims, secret)` and `verify(token, secret)`;
      a failed verify (the library throws) is None. */
  datatype Jwt = Jwt(sign: (Claims, string) -> string, verify: (string, string) -> Option<Claims>)

  /** A token verifies under the secret that signed it and under no other
      one, and is written without spaces (a compact JWT is three
      base64url segments joined by dots). */
  ghost predicate JwtSound(j: Jwt) {
    && (forall c, k :: j.verify(j.sign(c, k), k) == Some(c))
    && (forall c, k, k' :: k != k' ==> j.verify(j.sign(c, k), k').None?)
    && (forall c, k :: j.sign(c, k) != "" && ' ' !in j.sign(c, k))
  }

  /** The two signing secrets read from the server configuration. */
  datatype Secrets = Secrets(admin: string, user: string)
}

=== FILE: database.dfy ===
/** What the relational store guarantees on its own, as far as the route
    handlers rely on it: rows are keyed by their id, usernames and emails
    are unique, and every foreign key points at an existing row. The
    schema that fixes column defaults and delete behaviour is not part of
    this model, so both are parameters (DbConfig). */
module Database {
  import opened Types

  /** Behaviour of a delete whose row is still referenced. */
  datatype OnDelete = Cascade | Restrict

  datatype DbConfig = DbConfig(
    defaultStatus: PostStatus,   // column default of Post.status
    defaultRole: Role,           // column default of User.role
    onDelete: OnDelete)

  predicate KeyedById(s: Store) {
    && (forall k :: k in s.users ==> s.users[k].id == k)
    && (forall k :: k in s.posts ==> s.posts[k].id == k)
    && (forall k :: k in s.comments ==> s.comments[k].id == k)
    && (forall k :: k in s.notifications ==> s.notifications[k].id == k)
  }

  /** The unique constraints on User.username and User.email. */
  predicate UniqueCredentials(users: map<Id, User>) {
    forall a, b :: a in users && b in users && a != b ==>
      users[a].username != users[b].username && users[a].email != users[b].email
  }

  /** Every foreign key of every row refers to an existing row. */
  predicate Linked(s: Store) {
    && (forall k :: k in s.posts ==> s.posts[k].userId in s.users)
    && (forall k :: k in s.comments ==> s.comments[k].userId in s.users && s.comments[k].postId in s.posts)
    && (forall k :: k in s.notifications ==> s.notifications[k].userId in s.users)
  }

  predicate Valid(s: Store) {
    KeyedById(s) && UniqueCredentials(s.users) && Linked(s)
  }

  predicate PostReferenced(s: Store, pid: Id) {
    exists k :: k in s.comments && s.comments[k].postId == pid
  }

  predicate UserReferenced(s: Store, uid: Id) {
    || (exists k :: k in s.posts && s.posts[k].userId == uid)
    || (exists k :: k in s.comments && s.comments[k].userId == uid)
    || (exists k :: k in s.notifications && s.notifications[k].userId == uid)
  }

  /** A comment that a deletion of user `uid` drags along under Cascade:
      written by the user, or written on one of the user's posts. */
  predicate CommentOfUser(s: Store, c: Comment, uid: Id) {
    c.userId == uid || (c.postId in s.posts && s.posts[c.postId].userId == uid)
  }

  /** `delete from Post where id = pid`. None stands for the exception the
      client library throws: no such row, or a referencing comment under
      Restrict. */
  function DeletePost(s: Store, cfg: DbConfig, pid: Id): (r: Option<Store>)
    ensures r.None? <==> pid !in s.posts || (cfg.onDelete == Restrict && PostReferenced(s, pid))
    ensures r.Some? ==>
      && r.value.posts.Keys == s.posts.Keys - {pid}
      && (forall k :: k in r.value.posts ==> r.value.posts[k] == s.posts[k])
      && r.value.users == s.users
      && r.value.notifications == s.notifications
    ensures r.Some? ==> forall k :: k in s.comments ==>
      (k in r.value.comments <==> s.comments[k].postId != pid)
    ensures r.Some? ==> forall k :: k in r.value.comments ==> k in s.comments && r.value.comments[k] == s.comments[k]
  {
    if pid !in s.posts then None
    else if cfg.onDelete == Restrict && PostReferenced(s, pid) then None
    else
      Some(s.(posts := s.posts - {pid},
              comments := map k | k in s.comments && s.comments[k].postId != pid :: s.comments[k]))
  }

  /** `delete from User where id = uid`, with the configured policy for the
      rows that reference the user. */
  function DeleteUser(s: Store, cfg: DbConfig, uid: Id): (r: Option<Store>)
    ensures r.None? <==> uid !in s.users || (cfg.onDelete == Restrict && UserReferenced(s, uid))
    ensures r.Some? ==> r.value.users.Keys == s.users.Keys - {uid}
    ensures r.Some? ==> forall k :: k in r.value.users ==> r.value.users[k] == s.users[k]
    ensures r.Some? ==> forall k :: k in s.posts ==>
      (k in r.value.posts <==> s.posts[k].userId != uid)
    ensures r.Some? ==> forall k :: k in s.comments ==>
      (k in r.value.comments <==> !CommentOfUser(s, s.comments[k], uid))
    ensures r.Some? ==> forall k :: k in s.notifications ==>
      (k in r.value.notifications <==> s.notifications[k].userId != uid)
    ensures r.Some? ==>
      && (forall k :: k in r.value.posts ==> k in s.posts && r.value.posts[k] == s.posts[k])
      && (forall k :: k in r.value.comments ==> k in s.comments && r.value.comments[k] == s.comments[k])
      && (forall k :: k in r.value.notifications ==> k in s.notifications && r.value.notifications[k] == s.notifications[k])
  {
    if uid !in s.users then None
    else if cfg.onDelete == Restrict && UserReferenced(s, uid) then None
    else
      Some(Store(
        s.users - {uid},
        map k | k in s.posts && s.posts[k].userId != uid :: s.posts[k],
        map k | k in s.comments && !CommentOfUser(s, s.comments[k], uid) :: s.comments[k],
        map k | k in s.notifications && s.notifications[k].userId != uid :: s.notifications[k]))
  }

  /** Neither kind of delete can leave a dangling reference behind. */
  lemma DeletePostKeepsValid(s: Store, cfg: DbConfig, pid: Id)
    requires Valid(s)
    requires DeletePost(s, cfg, pid).Some?
    ensures Valid(DeletePost(s, cfg, pid).value)
  {
    var t := DeletePost(s, cfg, pid).value;
    forall k | k in t.comments
      ensures t.comments[k].postId in t.posts
    {
      assert s.comments[k].postId != pid;
    }
  }

  lemma DeleteUserKeepsValid(s: Store, cfg: DbConfig, uid: Id)
    requires Valid(s)
    requires DeleteUser(s, cfg, uid).Some?
    ensures Valid(DeleteUser(s, cfg, uid).value)
  {
    var t := DeleteUser(s, cfg, uid).value;
    forall k | k in t.comments
      ensures t.comments[k].userId in t.users && t.comments[k].postId in t.posts
    {
      var c := s.comments[k];
      assert !CommentOfUser(s, c, uid);
      assert c.postId in s.posts && s.posts[c.postId].userId != uid;
    }
    forall k | k in t.posts
      ensures t.posts[k].userId in t.users
    {
      assert s.posts[k].userId != uid;
    }
    forall k | k in t.notifications
      ensures t.notifications[k].userId in t.users
    {
      assert s.notifications[k].userId != uid;
    }
  }
}

=== FILE: listing.dfy ===
/** The read side of `findMany({ where, orderBy: { createdAt: "desc" } })`:
    pick the rows of a table that satisfy a filter and return them newest
    first. Shared by every listing handler. */
module Listing {
  import opened Types

  predicate NewestFirst<T>(s: seq<T>, stamp: T -> int) {
    forall i, j :: 0 <= i < j < |s| ==> stamp(s[i]) >= stamp(s[j])
  }

  /** The keys of the rows a `where` clause selects. */
  function Selected<T>(m: map<Id, T>, keep: T -> bool): set<Id> {
    set k | k in m && keep(m[k])
  }

  /** Puts `x` in front of the first element that is not newer than it. */
  function InsertByStamp<T(==)>(s: seq<T>, x: T, stamp: T -> int): (r: seq<T>)
    requires NewestFirst(s, stamp)
    ensures NewestFirst(r, stamp)
    ensures multiset(r) == multiset(s) + multiset{x}
    ensures r[0] == x || (|s| > 0 && r[0] == s[0])
  {
    if |s| == 0 then [x]
    else if stamp(x) >= stamp(s[0]) then [x] + s
    else
      var rest := InsertByStamp(s[1..], x, stamp);
      assert stamp(rest[0]) <= stamp(s[0]);
      assert s == [s[0]] + s[1..];
      [s[0]] + rest
  }

  /** All rows of `m` that `keep` accepts, one entry per row, newest first. */
  method SelectNewestFirst<T(==)>(m: map<Id, T>, keep: T -> bool, stamp: T -> int) returns (r: seq<T>)
    ensures NewestFirst(r, stamp)
    ensures forall x :: x in r <==> x in m.Values && keep(x)
    ensures |r| == |Selected(m, keep)|
  {
    r := [];
    var todo := m.Keys;
    ghost var picked: set<Id> := {};
    while todo != {}
      invariant todo <= m.Keys
      invariant picked == set k | k in m && k !in todo && keep(m[k])
      invariant NewestFirst(r, stamp)
      invariant forall x :: x in r <==> exists k :: k in picked && m[k] == x
      invariant |r| == |picked|
      decreases todo
    {
      var k :| k in todo;
      if keep(m[k]) {
        var r0 := r;
        r := InsertByStamp(r0, m[k], stamp);
        forall x
          ensures x in r <==> exists k' :: k' in picked + {k} && m[k'] == x
        {
          assert x in r <==> x in multiset(r);
          assert x in r0 <==> x in multiset(r0);
        }
        assert picked + {k} == set k' | k' in m && k' !in todo - {k} && keep(m[k']);
        picked := picked + {k};
      } else {
        assert picked == set k' | k' in m && k' !in todo - {k} && keep(m[k']);
      }
      todo := todo - {k};
    }
    assert picked == Selected(m, keep);
  }

  /** The first `n` entries, or all of them when there are fewer (`take`). */
  function Take<T>(s: seq<T>, n: nat): (r: seq<T>)
    ensures |r| == if |s| < n then |s| else n
    ensures forall i :: 0 <= i < |r| ==> r[i] == s[i]
  {
    if |s| <= n then s else s[..n]
  }

  /** `findMany({ where, orderBy: { createdAt: "desc" }, take: n })`: the
      n newest accepted rows, or all of them when there are fewer. A row
      is left out only when the list is full and the row is no newer than
      its last entry. */
  method SelectNewest<T(==)>(m: map<Id, T>, keep: T -> bool, stamp: T -> int, n: nat) returns (r: seq<T>, total: nat)
    ensures total == |Selected(m, keep)|
    ensures |r| == if total < n then total else n
    ensures NewestFirst(r, stamp)
    ensures forall x :: x in r ==> x in m.Values && keep(x)
    ensures forall x :: x in m.Values && keep(x) && x !in r ==> |r| == n && (n > 0 ==> stamp(x) <= stamp(r[n - 1]))
    ensures exists all: seq<T> ::
      && NewestFirst(all, stamp) && |all| == total
      && (forall x :: x in all <==> x in m.Values && keep(x))
      && r == Take(all, n)
  {
    var all := SelectNewestFirst(m, keep, stamp);
    r := Take(all, n);
    total := |all|;
    forall x | x in m.Values && keep(x) && x !in r
      ensures |r| == n && (n > 0 ==> stamp(x) <= stamp(r[n - 1]))
    {
      var i :| 0 <= i < |all| && all[i] == x;
      assert i >= |r|;
    }
  }

  lemma {:induction false} SubsetCardinality<T>(a: set<T>, b: set<T>)
    requires a <= b
    ensures |a| <= |b|
    decreases |b|
  {
    if a != {} {
      var x :| x in a;
      SubsetCardinality(a - {x}, b - {x});
    }
  }
}

=== FILE: notifications.dfy ===
/** The notification feed: list, unread count and mark-read, each scoped
    to the id the user middleware put on the request. Nothing here creates
    or deletes a notification, and `read` only ever moves to true. */
module NotificationRoutes {
  import opened Types
  import opened Listing
  import Database

  function OwnedIds(notes: map<Id, Notification>, caller: Id): set<Id> {
    set k | k in notes && notes[k].userId == caller
  }

  function UnreadIds(notes: map<Id, Notification>, caller: Id): set<Id> {
    set k | k in notes && notes[k].userId == caller && !notes[k].read
  }

  /** GET /notifications: the caller's notifications, newest first. */
  method List(s: Store, caller: Id) returns (status: int, feed: seq<Notification>)
    ensures status == OK
    ensures NewestFirst(feed, NotificationStamp)
    ensures forall n :: n in feed <==> n in s.notifications.Values && n.userId == caller
    ensures |feed| == |OwnedIds(s.notifications, caller)|
  {
    var mine := (n: Notification) => n.userId == caller;
    feed := SelectNewestFirst(s.notifications, mine, NotificationStamp);
    assert Selected(s.notifications, mine) == OwnedIds(s.notifications, caller);
    status := OK;
  }

  datatype CountReply = CountReply(status: int, count: nat)

  /** GET /notifications/count. */
  function Count(s: Store, caller: Id): (r: CountReply)
    ensures r.status == OK
    ensures r.count == |UnreadIds(s.notifications, caller)|
    ensures r.count <= |OwnedIds(s.notifications, caller)|
  {
    SubsetCardinality(UnreadIds(s.notifications, caller), OwnedIds(s.notifications, caller));
    CountReply(OK, |UnreadIds(s.notifications, caller)|)
  }

  /** PATCH /notifications/:notificationId/read. The update's `where` names
      both the id and the caller, so a missing row and another user's row
      alike make the update throw: 500, nothing written. */
  function MarkRead(s: Store, caller: Id, nid: Id): (r: Outcome)
    ensures r.status == OK <==> nid in s.notifications && s.notifications[nid].userId == caller
    ensures r.status != OK ==> r.status == INTERNAL_ERROR && r.store == s
    ensures r.store.users == s.users && r.store.posts == s.posts && r.store.comments == s.comments
    ensures r.store.notifications.Keys == s.notifications.Keys
    ensures forall k :: k in s.notifications && k != nid ==> r.store.notifications[k] == s.notifications[k]
    ensures r.status == OK ==> r.store.notifications[nid] == s.notifications[nid].(read := true)
  {
    if nid in s.notifications && s.notifications[nid].userId == caller then
      Outcome(OK, s.(notifications := s.notifications[nid := s.notifications[nid].(read := true)]))
    else
      Outcome(INTERNAL_ERROR, s)
  }

  /** A second mark-read of the same notification answers 200 again and
      leaves the store as the first one left it. */
  lemma MarkReadIdempotent(s: Store, caller: Id, nid: Id)
    requires MarkRead(s, caller, nid).status == OK
    ensures MarkRead(MarkRead(s, caller, nid).store, caller, nid) == MarkRead(s, caller, nid)
  {
    var t := MarkRead(s, caller, nid).store;
    assert t.notifications[nid := t.notifications[nid].(read := true)] == t.notifications;
  }

  /** Mark-read lowers the caller's unread count by one exactly when the
      notification was unread, and never moves anyone else's count. */
  lemma MarkReadCount(s: Store, caller: Id, nid: Id, other: Id)
    requires other != caller
    ensures var t := MarkRead(s, caller, nid).store;
      && (nid in s.notifications && s.notifications[nid].userId == caller && !s.notifications[nid].read
          ==> Count(t, caller).count == Count(s, caller).count - 1)
      && (nid in s.notifications && s.notifications[nid].read ==> Count(t, caller) == Count(s, caller))
      && Count(t, other) == Count(s, other)
  {
    var t := MarkRead(s, caller, nid).store;
    if MarkRead(s, caller, nid).status == OK {
      assert UnreadIds(t.notifications, caller) == UnreadIds(s.notifications, caller) - {nid};
      assert UnreadIds(t.notifications, other) == UnreadIds(s.notifications, other);
    }
  }

  /** Nothing in the feed routes sets `read` back to false. */
  lemma ReadIsSticky(s: Store, caller: Id, nid: Id, k: Id)
    requires k in s.notifications && s.notifications[k].read
    ensures MarkRead(s, caller, nid).store.notifications[k].read
  {
  }

  /** The unread count depends on the caller's notifications only. */
  lemma {:induction false} CountScoped(s: Store, t: Store, caller: Id)
    requires forall k :: k in s.notifications && s.notifications[k].userId == caller ==>
               k in t.notifications && t.notifications[k] == s.notifications[k]
    requires forall k :: k in t.notifications && t.notifications[k].userId == caller ==>
               k in s.notifications && s.notifications[k] == t.notifications[k]
    ensures Count(s, caller) == Count(t, caller)
  {
    assert UnreadIds(s.notifications, caller) == UnreadIds(t.notifications, caller);
  }

  lemma MarkReadKeepsValid(s: Store, caller: Id, nid: Id)
    requires Database.Valid(s)
    ensures Database.Valid(MarkRead(s, caller, nid).store)
  {
  }
}

=== FILE: post_page.dfy ===
/** The post page's view logic: the local comment list after an add or a
    delete, the owner-only delete menu, and the display fallbacks. */
module PostPage {
  import opened Types

  /** `[res.data.comment, ...(postInfo?.comments || [])]`. */
  function AfterAdd(comments: Option<seq<Comment>>, c: Comment): (r: seq<Comment>)
    ensures |r| == |comments.GetOr([])| + 1
    ensures r[0] == c && r[1..] == comments.GetOr([])
  {
    [c] + comments.GetOr([])
  }

  /** `comments.filter(c => c.id !== id)`. */
  function AfterDelete(comments: seq<Comment>, id: Id): (r: seq<Comment>)
    ensures forall c :: c in r <==> c in comments && c.id != id
    ensures Subsequence(r, comments)
    ensures |r| <= |comments|
  {
    if comments == [] then []
    else if comments[0].id != id then [comments[0]] + AfterDelete(comments[1..], id)
    else AfterDelete(comments[1..], id)
  }

  /** The filter keeps every entry with another id as often as it
      occurs, and drops every entry with that id. */
  lemma {:induction false} AfterDeleteCounts(comments: seq<Comment>, id: Id)
    ensures forall c :: multiset(AfterDelete(comments, id))[c] == if c.id != id then multiset(comments)[c] else 0
  {
    if comments != [] {
      AfterDeleteCounts(comments[1..], id);
      assert comments == [comments[0]] + comments[1..];
    }
  }

  /** Comment ids are distinct. */
  predicate DistinctIds(comments: seq<Comment>) {
    forall i, j :: 0 <= i < j < |comments| ==> comments[i].id != comments[j].id
  }

  /** A list without the id is left as it is. */
  lemma {:induction false} AfterDeleteAbsent(comments: seq<Comment>, id: Id)
    requires forall i :: 0 <= i < |comments| ==> comments[i].id != id
    ensures AfterDelete(comments, id) == comments
  {
    if comments != [] {
      AfterDeleteAbsent(comments[1..], id);
    }
  }

  /** Deleting a comment just added gives back the list before the add. */
  lemma AddThenDelete(comments: seq<Comment>, c: Comment)
    requires forall i :: 0 <= i < |comments| ==> comments[i].id != c.id
    ensures AfterDelete(AfterAdd(Some(comments), c), c.id) == comments
  {
    var r := AfterAdd(Some(comments), c);
    assert r[1..] == comments;
    AfterDeleteAbsent(comments, c.id);
  }

  /** The header count ("N Comments") drops by exactly one when a present
      id is deleted from a list with distinct ids. */
  lemma {:induction false} DeleteCount(comments: seq<Comment>, id: Id)
    requires DistinctIds(comments)
    requires exists i :: 0 <= i < |comments| && comments[i].id == id
    ensures |AfterDelete(comments, id)| == |comments| - 1
  {
    if comments[0].id == id {
      AfterDeleteAbsent(comments[1..], id);
    } else {
      var i :| 0 <= i < |comments| && comments[i].id == id;
      assert comments[1..][i - 1].id == id;
      DeleteCount(comments[1..], id);
    }
  }

  /** `session?.user.id === postInfo.userId`: the delete menu shows only
      to the post's owner, and never to a signed-out viewer. */
  function ShowDeleteMenu(session: Option<Id>, owner: Id): (show: bool)
    ensures show <==> session.Some? && session.value == owner
  {
    session == Some(owner)
  }

  /** The heading's placeholder, `postInfo.title || "Untitled Pin"`. */
  const UntitledPin := "Untitled Pin"

  /** The description's placeholder,
      `postInfo.description || "No description available."`. */
  const NoDescription := "No description available."

  /** JavaScript's `text || placeholder` on a string: an empty string is
      falsy, so it gives way to the placeholder. */
  function Displayed(text: string, placeholder: string): (d: string)
    requires placeholder != ""
    ensures d != ""
    ensures text != "" ==> d == text
    ensures text == "" ==> d == placeholder
  {
    if text == "" then placeholder else text
  }

  /** Showing a shown text again changes nothing, and a non-empty title
      or description is never replaced by its placeholder. */
  lemma DisplayedStable(text: string, placeholder: string)
    requires placeholder != ""
    ensures Displayed(Displayed(text, placeholder), placeholder) == Displayed(text, placeholder)
    ensures Displayed(text, placeholder) == placeholder <==> text == "" || text == placeholder
  {
  }
}

=== FILE: posts.dfy ===
/** The public post router: create (behind the user middleware), the
    approved-only feed, lookup by id, and delete. */
module PostRoutes {
  import opened Types
  import opened Listing
  import opened Schema
  import Database

  /** POST /create. The handler writes title, description, image,
      category, the caller as owner and zero likes; the status column gets
      its database default. A caller id with no user row fails the foreign
      key and a taken id fails the primary key: both answer 500. */
  function Create(s: Store, cfg: Database.DbConfig, caller: Id, body: PostBody, newId: Id, now: int): (r: Outcome)
    ensures r.status in {CREATED, UNAUTHORIZED, INTERNAL_ERROR}
    ensures r.status == UNAUTHORIZED <==> ParsePost(body).None?
    ensures r.status == CREATED <==> ParsePost(body).Some? && caller in s.users && newId !in s.posts
    ensures r.status != CREATED ==> r.store == s
    ensures r.status == CREATED ==>
      && r.store.posts.Keys == s.posts.Keys + {newId}
      && (forall k :: k in s.posts ==> r.store.posts[k] == s.posts[k])
      && r.store.users == s.users && r.store.comments == s.comments
      && r.store.notifications == s.notifications
    ensures r.status == CREATED ==>
      var p := r.store.posts[newId];
      && p.id == newId && p.userId == caller && p.likes == 0 && p.createdAt == now
      && p.title == body.title.value && p.description == body.description.value
      && p.image == body.image.value && p.category == body.category.value
      && p.status == cfg.defaultStatus
  {
    match ParsePost(body)
    case None => Outcome(UNAUTHORIZED, s)
    case Some(d) =>
      if caller !in s.users || newId in s.posts then Outcome(INTERNAL_ERROR, s)
      else
        var p := Post(newId, caller, d.title, d.description, d.image, d.category, cfg.defaultStatus, 0, now);
        Outcome(CREATED, s.(posts := s.posts[newId := p]))
  }

  lemma CreateKeepsValid(s: Store, cfg: Database.DbConfig, caller: Id, body: PostBody, newId: Id, now: int)
    requires Database.Valid(s)
    ensures Database.Valid(Create(s, cfg, caller, body, newId, now).store)
  {
  }

  /** GET /: every approved post, of every owner, in no promised order. */
  method PublicList(s: Store) returns (status: int, posts: seq<Post>)
    ensures status == OK
    ensures forall p :: p in posts <==> p in s.posts.Values && p.status == APPROVED
    ensures |posts| == |set k | k in s.posts && s.posts[k].status == APPROVED|
  {
    var approved := (p: Post) => p.status == APPROVED;
    posts := SelectNewestFirst(s.posts, approved, PostStamp);
    assert Selected(s.posts, approved) == set k | k in s.posts && s.posts[k].status == APPROVED;
    status := OK;
  }

  /** A newId post shows up in the public feed exactly when the database
      default status is APPROVED; otherwise only a moderator's approve
      makes it visible. */
  lemma FreshPostVisibility(s: Store, cfg: Database.DbConfig, caller: Id, body: PostBody, newId: Id, now: int)
    requires Create(s, cfg, caller, body, newId, now).status == CREATED
    ensures var p := Create(s, cfg, caller, body, newId, now).store.posts[newId];
      p.status == APPROVED <==> cfg.defaultStatus == APPROVED
  {
  }

  /** GET /:id: 200 with the post, or 200 with null when there is none;
      the status is not consulted. */
  function GetById(s: Store, id: Id): (r: Reply<Post>)
    ensures r.status == OK && r.store == s
    ensures r.body.Some? <==> id in s.posts
    ensures r.body.Some? ==> r.body.value == s.posts[id]
  {
    if id in s.posts then Reply(OK, Some(s.posts[id]), s) else Reply(OK, None, s)
  }

  /** DELETE /:id: any authenticated caller may delete any post. */
  function Delete(s: Store, cfg: Database.DbConfig, caller: Id, id: Id): (r: Outcome)
    ensures r.status == OK || r.status == INTERNAL_ERROR
    ensures r.status == OK <==> Database.DeletePost(s, cfg, id).Some?
    ensures r.status == OK ==> r.store == Database.DeletePost(s, cfg, id).value
    ensures r.status == OK ==> r.store.posts.Keys == s.posts.Keys - {id}
    ensures r.status == OK ==> forall k :: k in r.store.posts ==> r.store.posts[k] == s.posts[k]
    ensures r.status == OK ==> forall k :: k in s.comments ==> (k in r.store.comments <==> s.comments[k].postId != id)
    ensures r.status != OK ==> r.store == s
    ensures r.store.users == s.users && r.store.notifications == s.notifications
  {
    match Database.DeletePost(s, cfg, id)
    case Some(t) => Outcome(OK, t)
    case None => Outcome(INTERNAL_ERROR, s)
  }

  /** Delete does not look at who asks: two callers always get the same
      result, and under Cascade any caller deletes any existing post. */
  lemma DeleteIgnoresOwner(s: Store, cfg: Database.DbConfig, a: Id, b: Id, id: Id)
    ensures Delete(s, cfg, a, id) == Delete(s, cfg, b, id)
    ensures id in s.posts && cfg.onDelete == Database.Cascade ==> Delete(s, cfg, a, id).status == OK
  {
  }

  /** Looking up the post just created finds it, with the default status,
      whether or not it is visible in the public feed. */
  lemma CreateThenGet(s: Store, cfg: Database.DbConfig, caller: Id, body: PostBody, newId: Id, now: int)
    requires Create(s, cfg, caller, body, newId, now).status == CREATED
    ensures var r := GetById(Create(s, cfg, caller, body, newId, now).store, newId);
      && r.status == OK && r.body.Some?
      && r.body.value.userId == caller && r.body.value.status == cfg.defaultStatus
      && r.body.value.title == body.title.value
  {
  }

  /** Deleting the post just created restores the store. */
  lemma CreateThenDelete(s: Store, cfg: Database.DbConfig, caller: Id, body: PostBody, newId: Id, now: int)
    requires Create(s, cfg, caller, body, newId, now).status == CREATED
    requires forall k :: k in s.comments ==> s.comments[k].postId != newId
    ensures Delete(Create(s, cfg, caller, body, newId, now).store, cfg, caller, newId) == Outcome(OK, s)
  {
    var t := Create(s, cfg, caller, body, newId, now).store;
    assert !Database.PostReferenced(t, newId);
    var u := Database.DeletePost(t, cfg, newId).value;
    assert u.posts == s.posts;
    assert u.comments == s.comments;
  }
}

=== FILE: profile_page.dfy ===
/** The profile page's view logic: splitting the fetched posts by status,
    deciding whether the page is the viewer's own, and which tabs and
    badges show. */
module ProfilePage {
  import opened Types

  /** `posts.filter(post => post.status === st)`. */
  function WithStatus(posts: seq<Post>, st: PostStatus): (r: seq<Post>)
    ensures forall p :: p in r <==> p in posts && p.status == st
    ensures Subsequence(r, posts)
    ensures |r| <= |posts|
  {
    if posts == [] then []
    else if posts[0].status == st then [posts[0]] + WithStatus(posts[1..], st)
    else WithStatus(posts[1..], st)
  }

  datatype Lists = Lists(created: seq<Post>, pending: seq<Post>, rejected: seq<Post>)

  /** `res.data.posts || []` split three ways. */
  function Split(posts: Option<seq<Post>>): (l: Lists)
    ensures posts.None? ==> l == Lists([], [], [])
    ensures forall p :: p in l.created <==> p in posts.GetOr([]) && p.status == APPROVED
    ensures forall p :: p in l.pending <==> p in posts.GetOr([]) && p.status == PENDING
    ensures forall p :: p in l.rejected <==> p in posts.GetOr([]) && p.status == REJECTED
  {
    var all := posts.GetOr([]);
    Lists(WithStatus(all, APPROVED), WithStatus(all, PENDING), WithStatus(all, REJECTED))
  }

  /** Every post lands in exactly one list: the three lists together are a
      permutation of the fetched posts. */
  lemma {:induction false} SplitPartitions(posts: seq<Post>)
    ensures var l := Split(Some(posts));
      && multiset(l.created) + multiset(l.pending) + multiset(l.rejected) == multiset(posts)
      && |l.created| + |l.pending| + |l.rejected| == |posts|
  {
    if posts != [] {
      SplitPartitions(posts[1..]);
      assert posts == [posts[0]] + posts[1..];
      var l := Split(Some(posts));
      assert multiset(l.created) + multiset(l.pending) + multiset(l.rejected) == multiset(posts);
    }
  }

  /** `session?.user.id === userInfo?.id`: two absent ids compare equal. */
  function IsOwnProfile(session: Option<Id>, profile: Option<Id>): (own: bool)
    ensures own <==> (session.None? && profile.None?) || (session.Some? && profile.Some? && session.value == profile.value)
  {
    session == profile
  }

  datatype Tab = Created | Saved | Pending(badge: Option<nat>) | Rejected(badge: Option<nat>)

  /** A count badge, shown only for a non-empty list. */
  function Badge(n: nat): (b: Option<nat>)
    ensures b.Some? <==> n > 0
    ensures b.Some? ==> b.value == n
  {
    if n > 0 then Some(n) else None
  }

  /** The tab strip: Created and Saved always, Pending and Rejected with
      their badges only on the viewer's own profile. */
  function Tabs(own: bool, l: Lists): (tabs: seq<Tab>)
    ensures |tabs| >= 2 && tabs[0] == Created && tabs[1] == Saved
    ensures (exists i :: 0 <= i < |tabs| && tabs[i].Pending?) <==> own
    ensures (exists i :: 0 <= i < |tabs| && tabs[i].Rejected?) <==> own
    ensures forall i :: 0 <= i < |tabs| && tabs[i].Pending? ==> tabs[i].badge == Badge(|l.pending|)
    ensures forall i :: 0 <= i < |tabs| && tabs[i].Rejected? ==> tabs[i].badge == Badge(|l.rejected|)
  {
    if own then
      var tabs := [Created, Saved, Pending(Badge(|l.pending|)), Rejected(Badge(|l.rejected|))];
      assert tabs[2].Pending? && tabs[3].Rejected?;
      tabs
    else [Created, Saved]
  }

  /** A visitor never learns that a profile has pending or rejected posts:
      the tabs are the same whatever the lists hold. */
  lemma VisitorSeesNoModeration(a: Lists, b: Lists)
    ensures Tabs(false, a) == Tabs(false, b)
  {
  }
}

=== FILE: route_guard.dfy ===
/** The Next.js edge middleware's redirect decision, and the matcher that
    decides which paths reach it at all. */
module RouteGuard {

  datatype Decision = Redirect(target: string) | PassThrough

  /** Pages that need a signed-in user. */
  predicate Protected(path: string) {
    path == "/create" || path == "/home" || path == "/admin-dashboard"
  }

  /** Pages a signed-in user is sent away from. */
  predicate AuthPage(path: string) {
    path == "/signin" || path == "/signup" || path == "/"
  }

  /** The decision for a path that reaches the middleware. */
  function Decide(path: string, hasToken: bool): (d: Decision)
    ensures d == Redirect("/home") <==> hasToken && AuthPage(path)
    ensures d == Redirect("/signin") <==> !hasToken && Protected(path)
    ensures d.PassThrough? <==> !(hasToken && AuthPage(path)) && !(!hasToken && Protected(path))
  {
    if hasToken && AuthPage(path) then Redirect("/home")
    else if !hasToken && Protected(path) then Redirect("/signin")
    else PassThrough
  }

  /** `config.matcher`: the only paths the middleware sees. */
  const Matcher: set<string> := {"/signin", "/home", "/create", "/admin-dashboard"}

  /** What a request to `path` meets: the decision on a matched path, a
      pass-through on every other one. */
  function Intercept(path: string, hasToken: bool): (d: Decision)
    ensures path !in Matcher ==> d == PassThrough
    ensures d.Redirect? ==> d.target in Matcher
    ensures d.Redirect? <==> path in Matcher && Decide(path, hasToken).Redirect?
  {
    if path in Matcher then Decide(path, hasToken) else PassThrough
  }

  /** Following a redirect under the same token state never redirects
      again, so the guard cannot loop. */
  lemma NoRedirectLoop(path: string, hasToken: bool)
    requires Intercept(path, hasToken).Redirect?
    ensures Intercept(Intercept(path, hasToken).target, hasToken) == PassThrough
  {
  }

  /** Of the three pages a signed-in user should leave, only /signin is
      matched: a signed-in visit to /signup or / is never redirected. */
  lemma OnlySigninIntercepted(path: string)
    requires AuthPage(path)
    ensures Intercept(path, true) == Redirect("/home") <==> path == "/signin"
  {
  }
}

=== FILE: schema.dfy ===
/** The request-body validators. A body field is None when it is absent or
    not a string; a validator yields the parsed data or None ("Validation
    Failed"). Every bound is zod's `.min(n)`: inclusive. */
module Schema {
  import opened Types

  /** zod's `.string().min(n)` on one field. */
  predicate AtLeast(field: Option<string>, n: nat) {
    field.Some? && |field.value| >= n
  }

  datatype SignupBody = SignupBody(
    firstname: Option<string>, lastname: Option<string>, username: Option<string>,
    password: Option<string>, email: Option<string>)

  datatype SignupData = SignupData(
    firstname: string, lastname: string, username: string, password: string, email: string)

  /** SignupSchema. `isEmail` stands for zod's email pattern. */
  function ParseSignup(b: SignupBody, isEmail: string -> bool): (r: Option<SignupData>)
    ensures r.Some? <==>
      && b.firstname.Some? && b.lastname.Some?
      && AtLeast(b.username, 5) && AtLeast(b.password, 8)
      && b.email.Some? && isEmail(b.email.value)
    ensures r.Some? ==>
      && r.value.firstname == b.firstname.value && r.value.lastname == b.lastname.value
      && r.value.username == b.username.value && r.value.password == b.password.value
      && r.value.email == b.email.value
  {
    if b.firstname.Some? && b.lastname.Some? && AtLeast(b.username, 5) && AtLeast(b.password, 8)
       && b.email.Some? && isEmail(b.email.value)
    then Some(SignupData(b.firstname.value, b.lastname.value, b.username.value, b.password.value, b.email.value))
    else None
  }

  datatype Credentials = Credentials(username: string, password: string)

  datatype SigninBody = SigninBody(username: Option<string>, password: Option<string>)

  /** SigninSchema: any two strings, with no length bound. */
  function ParseSignin(b: SigninBody): (r: Option<Credentials>)
    ensures r.Some? <==> b.username.Some? && b.password.Some?
    ensures r.Some? ==> r.value == Credentials(b.username.value, b.password.value)
  {
    if b.username.Some? && b.password.Some? then Some(Credentials(b.username.value, b.password.value))
    else None
  }

  /** ProfileUpdateSchema: the same bounds as signup on both fields. */
  function ParseProfileUpdate(b: SigninBody): (r: Option<Credentials>)
    ensures r.Some? <==> AtLeast(b.username, 5) && AtLeast(b.password, 8)
    ensures r.Some? ==> r.value == Credentials(b.username.value, b.password.value)
  {
    if AtLeast(b.username, 5) && AtLeast(b.password, 8) then Some(Credentials(b.username.value, b.password.value))
    else None
  }

  datatype PostBody = PostBody(
    title: Option<string>, description: Option<string>, image: Option<string>, category: Option<string>)

  datatype PostData = PostData(title: string, description: string, image: string, category: string)

  /** PostCreateSchema: all four bounds at once. */
  function ParsePost(b: PostBody): (r: Option<PostData>)
    ensures r.Some? <==>
      AtLeast(b.title, 5) && AtLeast(b.description, 10) && AtLeast(b.image, 10) && AtLeast(b.category, 5)
    ensures r.Some? ==>
      r.value == PostData(b.title.value, b.description.value, b.image.value, b.category.value)
  {
    if AtLeast(b.title, 5) && AtLeast(b.description, 10) && AtLeast(b.image, 10) && AtLeast(b.category, 5)
    then Some(PostData(b.title.value, b.description.value, b.image.value, b.category.value))
    else None
  }

  /** Every accepted profile-update payload passes the signin schema with
      the same credentials. */
  lemma SchemasNested(b: SigninBody)
    ensures ParseProfileUpdate(b).Some? ==> ParseSignin(b) == ParseProfileUpdate(b)
  {
  }

  /** The credentials of every accepted signup payload pass the
      profile-update schema, so signup, profile update and signin accept
      nested sets of credentials. */
  lemma SignupCredentialsUpdatable(b: SignupBody, isEmail: string -> bool)
    ensures ParseSignup(b, isEmail).Some? ==>
      ParseProfileUpdate(SigninBody(b.username, b.password)) == Some(Credentials(b.username.value, b.password.value))
  {
  }

  /** Every bound of the post schema is inclusive: a payload at exactly
      the minimum lengths passes, and one character less or a missing
      value on any field fails. */
  lemma PostBoundsInclusive()
    ensures ParsePost(PostBody(Some("ttttt"), Some("dddddddddd"), Some("iiiiiiiiii"), Some("ccccc"))).Some?
    ensures ParsePost(PostBody(Some("tttt"), Some("dddddddddd"), Some("iiiiiiiiii"), Some("ccccc"))).None?
    ensures ParsePost(PostBody(Some("ttttt"), Some("ddddddddd"), Some("iiiiiiiiii"), Some("ccccc"))).None?
    ensures ParsePost(PostBody(Some("ttttt"), Some("dddddddddd"), Some("iiiiiiiii"), Some("ccccc"))).None?
    ensures ParsePost(PostBody(Some("ttttt"), Some("dddddddddd"), Some("iiiiiiiiii"), Some("cccc"))).None?
    ensures ParsePost(PostBody(None, Some("dddddddddd"), Some("iiiiiiiiii"), Some("ccccc"))).None?
    ensures ParsePost(PostBody(Some("ttttt"), None, Some("iiiiiiiiii"), Some("ccccc"))).None?
    ensures ParsePost(PostBody(Some("ttttt"), Some("dddddddddd"), None, Some("ccccc"))).None?
    ensures ParsePost(PostBody(Some("ttttt"), Some("dddddddddd"), Some("iiiiiiiiii"), None)).None?
  {
  }

  /** The username bound admits exactly five characters, although the
      error message says "greater than 5". */
  lemma UsernameBoundInclusive(isEmail: string -> bool)
    requires isEmail("a@b.co")
    ensures ParseSignup(SignupBody(Some(""), Some(""), Some("abcde"), Some("12345678"), Some("a@b.co")), isEmail).Some?
    ensures ParseSignup(SignupBody(Some(""), Some(""), Some("abcd"), Some("12345678"), Some("a@b.co")), isEmail).None?
  {
  }
}

=== FILE: types.dfy ===
/** Record shapes of the image-sharing service and the HTTP status codes its
    handlers answer with. The data store is a value: one immutable map per
    table, keyed by record id. */
module Types {

  type Id = string

  datatype Option<T> = None | Some(value: T) {
    function GetOr(default: T): T {
      match this
      case Some(v) => v
      case None => default
    }
  }

  datatype Role = USER | ADMIN

  datatype PostStatus = PENDING | APPROVED | REJECTED

  datatype NotificationKind = MEDIA_APPROVED | MEDIA_REJECTED

  datatype User = User(
    id: Id,
    username: string,
    email: string,
    password: string,   // what the users table holds: a hash after signup
    role: Role,
    firstname: string,
    lastname: string,
    createdAt: int)

  datatype Post = Post(
    id: Id,
    userId: Id,
    title: string,
    description: string,
    image: string,
    category: string,
    status: PostStatus,
    likes: int,
    createdAt: int)

  datatype Comment = Comment(
    id: Id,
    text: string,
    userId: Id,
    postId: Id,
    createdAt: int)

  datatype Notification = Notification(
    id: Id,
    userId: Id,
    kind: NotificationKind,
    read: bool,
    createdAt: int,
    message: Option<string>,
    postId: Id,
    mediaUrl: string,
    mediaTitle: string)

  datatype Store = Store(
    users: map<Id, User>,
    posts: map<Id, Post>,
    comments: map<Id, Comment>,
    notifications: map<Id, Notification>)

  /** The status code a handler answered with and the store it left behind. */
  datatype Outcome = Outcome(status: int, store: Store)

  /** The same, for a handler whose success answer carries a record. */
  datatype Reply<T> = Reply(status: int, body: Option<T>, store: Store)

  const OK := 200
  const CREATED := 201
  const BAD_REQUEST := 400
  const UNAUTHORIZED := 401
  const FORBIDDEN := 403
  const NOT_FOUND := 404
  const CONFLICT := 409
  const INTERNAL_ERROR := 500

  function RoleName(r: Role): string {
    match r
    case USER => "USER"
    case ADMIN => "ADMIN"
  }

  function PostStamp(p: Post): int { p.createdAt }
  function CommentStamp(c: Comment): int { c.createdAt }
  function UserStamp(u: User): int { u.createdAt }
  function NotificationStamp(n: Notification): int { n.createdAt }

  /** `a` is `b` with some entries dropped, the rest in their order. */
  predicate Subsequence<T(==)>(a: seq<T>, b: seq<T>)
    decreases |b|
  {
    if a == [] then true
    else if b == [] then false
    else if a[0] == b[0] then Subsequence(a[1..], b[1..])
    else Subsequence(a, b[1..])
  }
}

=== FILE: users.dfy ===
/** The account router: signup, signin, and the caller's own profile
    (read, update, delete) behind the user middleware. */
module UserRoutes {
  import opened Types
  import opened Schema
  import opened Crypto
  import opened Auth
  import Database

  /** Some stored user already has this username or this email
      (`findFirst` with an OR of the two). */
  predicate Clashes(users: map<Id, User>, username: string, email: string) {
    exists k :: k in users && (users[k].username == username || users[k].email == email)
  }

  /** The row signup writes: the password goes through the hasher, the
      role is the column default. */
  function NewAccount(d: SignupData, hasher: Hasher, role: Role, id: Id, now: int): User {
    User(id, d.username, d.email, hasher.hash(d.password), role, d.firstname, d.lastname, now)
  }

  /** POST /signup: 400 on a bad payload, 409 when the username or email
      is taken, 201 with the new row, and 500 if the insert throws (a taken
      primary key). */
  function Signup(s: Store, cfg: Database.DbConfig, hasher: Hasher, isEmail: string -> bool,
                  b: SignupBody, newId: Id, now: int): (r: Outcome)
    ensures r.status in {CREATED, BAD_REQUEST, CONFLICT, INTERNAL_ERROR}
    ensures r.status == BAD_REQUEST <==> ParseSignup(b, isEmail).None?
    ensures r.status == CONFLICT <==>
      ParseSignup(b, isEmail).Some? && Clashes(s.users, b.username.value, b.email.value)
    ensures r.status == CREATED <==>
      ParseSignup(b, isEmail).Some? && !Clashes(s.users, b.username.value, b.email.value) && newId !in s.users
    ensures r.status != CREATED ==> r.store == s
    ensures r.status == CREATED ==>
      && r.store.users.Keys == s.users.Keys + {newId}
      && (forall k :: k in s.users ==> r.store.users[k] == s.users[k])
      && r.store.users[newId].password == hasher.hash(b.password.value)
      && r.store.users[newId].username == b.username.value
      && r.store.users[newId].email == b.email.value
      && r.store.users[newId].role == cfg.defaultRole
      && r.store.users[newId].id == newId && r.store.users[newId].createdAt == now
      && r.store.users[newId].firstname == b.firstname.value
      && r.store.users[newId].lastname == b.lastname.value
      && r.store.posts == s.posts && r.store.comments == s.comments
      && r.store.notifications == s.notifications
  {
    match ParseSignup(b, isEmail)
    case None => Outcome(BAD_REQUEST, s)
    case Some(d) =>
      if Clashes(s.users, d.username, d.email) then Outcome(CONFLICT, s)
      else if newId in s.users then Outcome(INTERNAL_ERROR, s)
      else Outcome(CREATED, s.(users := s.users[newId := NewAccount(d, hasher, cfg.defaultRole, newId, now)]))
  }

  lemma SignupKeepsValid(s: Store, cfg: Database.DbConfig, hasher: Hasher, isEmail: string -> bool,
                         b: SignupBody, newId: Id, now: int)
    requires Database.Valid(s)
    ensures Database.Valid(Signup(s, cfg, hasher, isEmail, b, newId, now).store)
  {
    var r := Signup(s, cfg, hasher, isEmail, b, newId, now);
    if r.status == CREATED {
      var u := r.store.users;
      forall a, c | a in u && c in u && a != c
        ensures u[a].username != u[c].username && u[a].email != u[c].email
      {
        if a != newId && c != newId {
          assert u[a] == s.users[a] && u[c] == s.users[c];
        } else if a == newId {
          assert c in s.users && !(s.users[c].username == b.username.value || s.users[c].email == b.email.value);
        } else {
          assert a in s.users && !(s.users[a].username == b.username.value || s.users[a].email == b.email.value);
        }
      }
    }
  }

  /** Signing up twice with the same payload: the second attempt is a 409. */
  lemma SignupTwiceConflicts(s: Store, cfg: Database.DbConfig, hasher: Hasher, isEmail: string -> bool,
                             b: SignupBody, id1: Id, id2: Id, now: int)
    requires Signup(s, cfg, hasher, isEmail, b, id1, now).status == CREATED
    ensures Signup(Signup(s, cfg, hasher, isEmail, b, id1, now).store, cfg, hasher, isEmail, b, id2, now).status == CONFLICT
  {
    var t := Signup(s, cfg, hasher, isEmail, b, id1, now).store;
    assert t.users[id1].username == b.username.value;
  }

  /** `findUnique({ where: { username } })`: the unique constraint makes
      the row, if any, the only one. */
  function FindByUsername(users: map<Id, User>, username: string): (u: Option<User>)
    requires Database.UniqueCredentials(users)
    ensures u.None? <==> forall k :: k in users ==> users[k].username != username
    ensures u.Some? ==> u.value.username == username && exists k :: k in users && users[k] == u.value
  {
    if exists k :: k in users && users[k].username == username then
      var k :| k in users && users[k].username == username;
      Some(users[k])
    else None
  }

  /** What a successful signin answers besides the message. */
  datatype Session = Session(id: Id, token: string, role: Role, username: string)

  /** The secret a token is signed with: the admin one for admins. */
  function SigningSecret(secrets: Secrets, role: Role): string {
    if role == ADMIN then secrets.admin else secrets.user
  }

  /** The signin answer for a user: a token over `{ id, role }`. */
  function SessionFor(u: User, j: Jwt, secrets: Secrets): Session {
    Session(u.id, j.sign(Claims(u.id, RoleName(u.role)), SigningSecret(secrets, u.role)), u.role, u.username)
  }

  /** POST /signin: 400 on a bad payload, 401 for an unknown username or a
      wrong password, otherwise 200 with a token carrying the id and role. */
  function Signin(s: Store, hasher: Hasher, j: Jwt, secrets: Secrets, b: SigninBody): (r: Reply<Session>)
    requires Database.UniqueCredentials(s.users)
    ensures r.store == s
    ensures r.status in {OK, BAD_REQUEST, UNAUTHORIZED}
    ensures r.status == BAD_REQUEST <==> ParseSignin(b).None?
    ensures r.body.Some? <==> r.status == OK
    ensures r.status == OK <==>
      && ParseSignin(b).Some?
      && exists k :: k in s.users && s.users[k].username == b.username.value
                   && hasher.compare(b.password.value, s.users[k].password)
    ensures r.status == OK ==>
      exists k :: k in s.users && s.users[k].username == b.username.value && r.body.value == SessionFor(s.users[k], j, secrets)
  {
    match ParseSignin(b)
    case None => Reply(BAD_REQUEST, None, s)
    case Some(c) =>
      match FindByUsername(s.users, c.username)
      case None => Reply(UNAUTHORIZED, None, s)
      case Some(u) =>
        if !hasher.compare(c.password, u.password) then Reply(UNAUTHORIZED, None, s)
        else
          Reply(OK, Some(SessionFor(u, j, secrets)), s)
  }

  /** Signup then signin with the same username and password succeeds, for
      the new account, with its default role. */
  lemma SignupThenSignin(s: Store, cfg: Database.DbConfig, hasher: Hasher, isEmail: string -> bool, j: Jwt,
                         secrets: Secrets, b: SignupBody, newId: Id, now: int)
    requires HasherSound(hasher) && Database.Valid(s)
    requires Signup(s, cfg, hasher, isEmail, b, newId, now).status == CREATED
    ensures var t := Signup(s, cfg, hasher, isEmail, b, newId, now).store;
      && Database.UniqueCredentials(t.users)
      && Signin(t, hasher, j, secrets, SigninBody(b.username, b.password)).status == OK
      && Signin(t, hasher, j, secrets, SigninBody(b.username, b.password)).body.value.id == newId
      && Signin(t, hasher, j, secrets, SigninBody(b.username, b.password)).body.value.role == cfg.defaultRole
  {
    var t := Signup(s, cfg, hasher, isEmail, b, newId, now).store;
    SignupKeepsValid(s, cfg, hasher, isEmail, b, newId, now);
    assert Database.KeyedById(s);
    assert t.users[newId].id == newId;
    assert hasher.compare(b.password.value, t.users[newId].password);
    var r := Signin(t, hasher, j, secrets, SigninBody(b.username, b.password));
    var k :| k in t.users && t.users[k].username == b.username.value && r.body.value == SessionFor(t.users[k], j, secrets);
    assert k == newId;
  }

  /** With distinct secrets, the token a signin hands out opens the admin
      middleware exactly for admins and the user middleware exactly for
      users, in both cases as the signed-in account. */
  lemma SigninTokenTier(s: Store, hasher: Hasher, j: Jwt, secrets: Secrets, b: SigninBody)
    requires JwtSound(j) && secrets.admin != secrets.user
    requires Database.UniqueCredentials(s.users)
    requires Signin(s, hasher, j, secrets, b).status == OK
    ensures var a := Signin(s, hasher, j, secrets, b).body.value;
      && (AdminGate(j, secrets, Some("Bearer " + a.token)) == if a.role == ADMIN then Next(a.id) else Respond(FORBIDDEN))
      && (UserGate(j, secrets, Some("Bearer " + a.token)) == if a.role == USER then Next(a.id) else Respond(FORBIDDEN))
  {
    var a := Signin(s, hasher, j, secrets, b).body.value;
    var c := Claims(a.id, RoleName(a.role));
    assert a.token == j.sign(c, SigningSecret(secrets, a.role));
    SecretsSeparateTiers(j, secrets, c);
  }

  /** The caller's row with the posts it owns (the response includes the
      stored password digest). */
  datatype Profile = Profile(user: User, posts: map<Id, Post>)

  /** GET /me: 400 when the id in the token has no row. */
  function Me(s: Store, caller: Id): (r: Reply<Profile>)
    ensures r.store == s
    ensures r.status == OK || r.status == BAD_REQUEST
    ensures r.status == OK <==> caller in s.users
    ensures r.body.Some? <==> r.status == OK
    ensures r.status == OK ==> r.body.value.user == s.users[caller]
    ensures r.status == OK ==> forall k :: k in r.body.value.posts <==> k in s.posts && s.posts[k].userId == caller
    ensures r.status == OK ==> forall k :: k in r.body.value.posts ==> r.body.value.posts[k] == s.posts[k]
  {
    if caller !in s.users then Reply(BAD_REQUEST, None, s)
    else Reply(OK, Some(Profile(s.users[caller], map k | k in s.posts && s.posts[k].userId == caller :: s.posts[k])), s)
  }

  /** A new account reads back through GET /me as its own row, with no
      posts yet. */
  lemma SignupThenMe(s: Store, cfg: Database.DbConfig, hasher: Hasher, isEmail: string -> bool,
                     b: SignupBody, newId: Id, now: int)
    requires Database.Valid(s)
    requires Signup(s, cfg, hasher, isEmail, b, newId, now).status == CREATED
    ensures var t := Signup(s, cfg, hasher, isEmail, b, newId, now).store;
      && Me(t, newId).status == OK
      && Me(t, newId).body.value.user == t.users[newId]
      && Me(t, newId).body.value.user.username == b.username.value
      && Me(t, newId).body.value.posts == map[]
  {
    var t := Signup(s, cfg, hasher, isEmail, b, newId, now).store;
    assert Database.Linked(s);
    var ps := Me(t, newId).body.value.posts;
    assert forall k :: k in t.posts ==> t.posts[k].userId != newId;
    assert ps.Keys == {};
  }

  /** Another user already holds this username. */
  predicate NameTaken(users: map<Id, User>, caller: Id, username: string) {
    exists k :: k in users && k != caller && users[k].username == username
  }

  /** The update both PUT /me variants perform, given the password value to
      store: 401 on a bad payload, 500 when the row is missing or the new
      username is taken (the update throws). */
  function UpdateWith(s: Store, caller: Id, b: SigninBody, stored: string): (r: Outcome)
    ensures r.status in {OK, UNAUTHORIZED, INTERNAL_ERROR}
    ensures r.status == UNAUTHORIZED <==> ParseProfileUpdate(b).None?
    ensures r.status == OK <==>
      ParseProfileUpdate(b).Some? && caller in s.users && !NameTaken(s.users, caller, b.username.value)
    ensures r.status != OK ==> r.store == s
    ensures r.status == OK ==>
      && r.store.users.Keys == s.users.Keys
      && r.store.users[caller] == s.users[caller].(username := b.username.value, password := stored)
      && (forall k :: k in s.users && k != caller ==> r.store.users[k] == s.users[k])
      && r.store.posts == s.posts && r.store.comments == s.comments
      && r.store.notifications == s.notifications
  {
    match ParseProfileUpdate(b)
    case None => Outcome(UNAUTHORIZED, s)
    case Some(c) =>
      if caller !in s.users || NameTaken(s.users, caller, c.username) then Outcome(INTERNAL_ERROR, s)
      else Outcome(OK, s.(users := s.users[caller := s.users[caller].(username := c.username, password := stored)]))
  }

  /** PUT /me as written: the new password is stored as received. */
  function UpdateMe(s: Store, caller: Id, b: SigninBody): (r: Outcome)
    ensures r.status == OK <==>
      ParseProfileUpdate(b).Some? && caller in s.users && !NameTaken(s.users, caller, b.username.value)
    ensures r.status == OK ==> caller in r.store.users && r.store.users[caller].password == b.password.value
    ensures b.password.Some? ==> r == UpdateWith(s, caller, b, b.password.value)
    ensures b.password.None? ==> r.status == UNAUTHORIZED && r.store == s
  {
    if b.password.Some? then UpdateWith(s, caller, b, b.password.value) else UpdateWith(s, caller, b, "")
  }

  /** PUT /me as evidently intended: the new password is hashed as at
      signup. */
  function UpdateMeHashed(s: Store, hasher: Hasher, caller: Id, b: SigninBody): (r: Outcome)
    ensures r.status == OK <==>
      ParseProfileUpdate(b).Some? && caller in s.users && !NameTaken(s.users, caller, b.username.value)
    ensures r.status == OK ==> caller in r.store.users && r.store.users[caller].password == hasher.hash(b.password.value)
    ensures b.password.Some? ==> r == UpdateWith(s, caller, b, hasher.hash(b.password.value))
    ensures b.password.None? ==> r.status == UNAUTHORIZED && r.store == s
  {
    if b.password.Some? then UpdateWith(s, caller, b, hasher.hash(b.password.value)) else UpdateWith(s, caller, b, "")
  }

  lemma UpdateKeepsValid(s: Store, caller: Id, b: SigninBody, stored: string)
    requires Database.Valid(s)
    ensures Database.Valid(UpdateWith(s, caller, b, stored).store)
  {
    var r := UpdateWith(s, caller, b, stored);
    if r.status == OK {
      var u := r.store.users;
      forall a, c | a in u && c in u && a != c
        ensures u[a].username != u[c].username && u[a].email != u[c].email
      {
        if a == caller {
          assert u[c] == s.users[c];
        } else if c == caller {
          assert u[a] == s.users[a];
        } else {
          assert u[a] == s.users[a] && u[c] == s.users[c];
        }
      }
    }
  }

  /** A bcrypt-like stand-in: the digest of p is "#" + p. */
  function Prefixer(): Hasher {
    Hasher(p => "#" + p, (p, d) => d == "#" + p)
  }

  /** A hasher whose compare accepts exactly the digest, and whose digest
      never equals the password itself, as with bcrypt. */
  ghost predicate DigestOnly(h: Hasher) {
    && (forall p, d :: h.compare(p, d) <==> d == h.hash(p))
    && (forall p :: h.hash(p) != p)
  }

  /** As written, every successful profile update locks its user out:
      the stored value is the plain password, which compare rejects, and
      no other user holds the new username. */
  lemma UpdateMeLocksOut(s: Store, hasher: Hasher, j: Jwt, secrets: Secrets, caller: Id, b: SigninBody)
    requires Database.Valid(s) && DigestOnly(hasher)
    requires UpdateMe(s, caller, b).status == OK
    ensures var t := UpdateMe(s, caller, b).store;
      Database.UniqueCredentials(t.users) && Signin(t, hasher, j, secrets, b).status == UNAUTHORIZED
  {
    var t := UpdateMe(s, caller, b).store;
    var pw := b.password.value;
    assert t == UpdateWith(s, caller, b, pw).store;
    UpdateKeepsValid(s, caller, b, pw);
    forall k | k in t.users && t.users[k].username == b.username.value
      ensures !hasher.compare(pw, t.users[k].password)
    {
      assert k == caller;
      assert t.users[k].password == pw && hasher.hash(pw) != pw;
    }
  }

  /** The hypotheses of UpdateMeLocksOut are met by a concrete hasher and
      store: user "u1" updates alice1 to alice2/password2 under the "#" + p
      digest, and signing in with alice2/password2 then answers 401. */
  lemma LockOutExample(j: Jwt, secrets: Secrets)
    ensures
      var s := Store(map["u1" := User("u1", "alice1", "a@b.co", "#password1", USER, "A", "B", 0)], map[], map[], map[]);
      var b := SigninBody(Some("alice2"), Some("password2"));
      && HasherSound(Prefixer()) && DigestOnly(Prefixer()) && Database.Valid(s)
      && UpdateMe(s, "u1", b).status == OK
      && Signin(UpdateMe(s, "u1", b).store, Prefixer(), j, secrets, b).status == UNAUTHORIZED
  {
    var s := Store(map["u1" := User("u1", "alice1", "a@b.co", "#password1", USER, "A", "B", 0)], map[], map[], map[]);
    var b := SigninBody(Some("alice2"), Some("password2"));
    forall p: string
      ensures Prefixer().hash(p) != p
    {
      assert |Prefixer().hash(p)| == |p| + 1;
    }
    UpdateMeLocksOut(s, Prefixer(), j, secrets, "u1", b);
  }

  /** With hashing, the caller signs in with the new credentials. */
  lemma UpdateMeHashedThenSignin(s: Store, hasher: Hasher, j: Jwt, secrets: Secrets, caller: Id, b: SigninBody)
    requires HasherSound(hasher) && Database.Valid(s)
    requires UpdateMeHashed(s, hasher, caller, b).status == OK
    ensures var t := UpdateMeHashed(s, hasher, caller, b).store;
      && Database.UniqueCredentials(t.users)
      && Signin(t, hasher, j, secrets, b).status == OK
      && Signin(t, hasher, j, secrets, b).body.value.id == caller
  {
    var t := UpdateMeHashed(s, hasher, caller, b).store;
    UpdateKeepsValid(s, caller, b, hasher.hash(b.password.value));
    assert t == UpdateWith(s, caller, b, hasher.hash(b.password.value)).store;
    assert Database.KeyedById(s);
    assert t.users[caller].id == caller;
    assert hasher.compare(b.password.value, t.users[caller].password);
    var r := Signin(t, hasher, j, secrets, b);
    var k :| k in t.users && t.users[k].username == b.username.value && r.body.value == SessionFor(t.users[k], j, secrets);
    assert k == caller;
  }

  /** DELETE /me: the database delete, 500 when it throws. */
  function DeleteMe(s: Store, cfg: Database.DbConfig, caller: Id): (r: Outcome)
    ensures r.status == OK || r.status == INTERNAL_ERROR
    ensures r.status == OK <==> Database.DeleteUser(s, cfg, caller).Some?
    ensures r.status == OK ==> r.store == Database.DeleteUser(s, cfg, caller).value
    ensures r.status == OK ==> r.store.users.Keys == s.users.Keys - {caller}
    ensures r.status == OK ==> forall k :: k in r.store.users ==> r.store.users[k] == s.users[k]
    ensures r.status != OK ==> r.store == s
  {
    match Database.DeleteUser(s, cfg, caller)
    case Some(t) => Outcome(OK, t)
    case None => Outcome(INTERNAL_ERROR, s)
  }

  /** After deleting the account, signin as that username fails. */
  lemma DeleteMeThenSignin(s: Store, cfg: Database.DbConfig, hasher: Hasher, j: Jwt, secrets: Secrets,
                           caller: Id, b: SigninBody)
    requires Database.Valid(s) && ParseSignin(b).Some?
    requires caller in s.users && s.users[caller].username == b.username.value
    requires DeleteMe(s, cfg, caller).status == OK
    ensures var t := DeleteMe(s, cfg, caller).store;
      Database.UniqueCredentials(t.users) && Signin(t, hasher, j, secrets, b).status == UNAUTHORIZED
  {
    var t := DeleteMe(s, cfg, caller).store;
    Database.DeleteUserKeepsValid(s, cfg, caller);
    forall k | k in t.users
      ensures t.users[k].username != b.username.value
    {
      assert k != caller && t.users[k] == s.users[k];
    }
  }
}
